=== FILE: README.md ===
# Retail order demo for Azure Event Hubs — a Dafny model

The repository has two scripts:

- `send_orders.py` publishes simulated retail orders to an Event Hub (the Microsoft Fabric Eventstream custom endpoint).
- `receive_orders.py` reads the orders back and prints them.

This project models the logic of those scripts that does not depend on the Azure SDK, and proves what it promises:

- **`.env` loader** (`DotEnv`). It parses lines and merges them into the environment without overriding existing keys. Both scripts carry an identical copy.
- **Connection-string resolution** (`Connection`). The order is: the command-line value, then the role-specific variable, then the shared `EVENTHUB_CONNECTION_STRING`.
- **`EntityPath` extraction** (`Connection`). It reads the Event Hub name out of a `;`-separated connection string. It is also used as the fallback when `--event-hub` is not given.
- **Consumer dispatch** (`Consumer`):
  - normalisation of the `--store-id` filter;
  - the print/skip decision of `on_event`;
  - the budget counter with its stop signal;
  - checkpoint updates.
- **Producer** (`Producer`):
  - the shape of a built order;
  - the guard on the delays;
  - the send loop with its `--count` rule;
  - the exit status of `main`.

Supporting modules:

- `Text` models the Python `str` operations involved: `strip` and `lstrip` with and without a character set, `lower` in prefix tests, `in` for one character, `split` and `split(sep, 1)`. `Text.Find` locates the first occurrence of a character; it underlies the `in` tests and both splits, and is not a `str.find` call of the scripts.
- `Wrappers` holds `Option` and `Result`.

The Python operations are modelled precisely:

- Whitespace is the set of characters for which `str.isspace()` holds.
- `strip(chars)` removes a character set from both ends.
- `lower().startswith(p)` is modelled as an ASCII fold. This is exact for the two lower-case ASCII prefixes the scripts test, `export ` and `entitypath=`.
- Integers are unbounded, as in Python.

Randomness, the clock, the Azure client and the user's Ctrl-C are inputs to the model:

- A `Draw` holds the catalog indices and numbers `build_order_event` would pick.
- A `World` holds which client call or send fails, when the interrupt arrives, the pause drawn after each send, and how many loop iterations are observed.

Two consequences of the code are easy to miss, and the model keeps both:

- **Checkpoints.** The consumer's callback does not update the checkpoint of every event. An exception that escapes `on_event` stops `_on_event` before it touches the budget or reaches `update_checkpoint`. `on_event` raises in three places:
  - `json.loads` raises something other than `JSONDecodeError`. An integer literal of more than 4300 digits gives `ValueError`, and nesting deeper than the recursion limit gives `RecursionError`. This happens before the filter is consulted.
  - A filter is active and an object's `store_id` is a JSON array or object. Then `store_id not in store_filter` raises `TypeError`, because the value is unhashable.
  - The filter lets the event through, but stdout cannot encode its pretty-printed payload. A string holding a lone surrogate escape such as `"\ud800"` gives `UnicodeEncodeError`.

  `Consumer.OnEvent` returns `Raised` with the exception in each case, and `Consumer.Step` leaves the state untouched.
- **Filter normalisation.** Normalisation is not literally idempotent. All-blank ids turn into an empty set in `main`, and that set turns into "no filter" in `receive_events`. Idempotence holds for the filter `receive_events` builds, and for whatever `on_event` can observe.

## Model

| member | source | states |
|---|---|---|
| Text.LStrip | receive_orders.py:35 | `lstrip` removes exactly the longest prefix of characters from the set: the result is a suffix that does not start with one of them |
| Text.RStrip | receive_orders.py:40 | the right-hand half of `strip`: it removes exactly the longest suffix of characters from the set |
| Text.LStripRun | receive_orders.py:35 | `lstrip` removes a leading run of set characters and nothing more when the text after the run does not start with one |
| Text.Strip | receive_orders.py:40 | `strip` returns a piece of the input that neither starts nor ends with a character of the set, and is the input itself when nothing is removed |
| Text.StripIsBothEnds | receive_orders.py:40 | stripping both ends equals `lstrip` followed by `rstrip` |
| Text.StripKeeps | receive_orders.py:40 | text with no strippable character at either end is unchanged |
| Text.StripWithin | receive_orders.py:31 | every character of the stripped text occurs in the original |
| Text.StripEmpty | receive_orders.py:51 | the stripped text is empty exactly when every character is in the set (Python blank-string truthiness) |
| Text.StripIdempotent | receive_orders.py:52 | stripping twice gives what stripping once gives |
| Text.IsBlank | receive_orders.py:51 | the falsiness of `s.strip()`: blank exactly when stripping whitespace leaves nothing |
| Text.LowerChar | receive_orders.py:69 | `str.lower()` of one character, on ASCII capitals |
| Text.FoldedPrefix | receive_orders.py:34 | `s.lower().startswith(p)` for a lower-case ASCII prefix, compared character by character |
| Text.Find | receive_orders.py:36-38 | the first occurrence of the character, and none exactly when it does not occur |
| Text.FindAfterPrefix | receive_orders.py:38 | after a prefix without `c`, the first `c` is the one right after the prefix |
| Text.Split | receive_orders.py:68 | `split(';')` yields at least one part, no part holds the separator, and joining the parts restores the string |
| Text.SplitJoin | receive_orders.py:68 | splitting a join of separator-free parts returns those parts |
| Text.AfterFirst | receive_orders.py:70 | `split('=', 1)[1]` is the suffix that follows the first `=` |
| Text.AfterFirstOf | receive_orders.py:70 | for `a=b` with `=` absent from `a`, the text after the first `=` is `b` |
| DotEnv.Clean | receive_orders.py:40 | a cleaned value neither begins nor ends with a curly quote |
| DotEnv.CleanFixpointTrimmed | receive_orders.py:40 | a value that cleaning leaves unchanged has no surrounding whitespace |
| DotEnv.CleanOrderMatters | receive_orders.py:40 | the fixed order is observable: `'"x"'` cleans to `"x"` while `"'x'"` cleans to `x` |
| DotEnv.Line | receive_orders.py:31 | the raw line stripped of surrounding whitespace: no longer than the raw line, and neither beginning nor ending with whitespace |
| DotEnv.HasExportPrefix | receive_orders.py:34 | the line starts with `export ` in any ASCII letter case |
| DotEnv.Unexport | receive_orders.py:34-35 | removing `export ` and the whitespace that follows introduces no new character |
| DotEnv.UnexportOf | receive_orders.py:34-35 | a line made of `export ` in any letter case, a run of whitespace and then text that does not start with whitespace becomes exactly that text |
| DotEnv.Entry | receive_orders.py:36-42 | a line without `=`, or with an empty key, defines nothing; otherwise the key is non-empty, trimmed and `=`-free, and the value is clean |
| DotEnv.EntryOf | receive_orders.py:36-42 | the body `k0=v0` with `=` absent from `k0` defines exactly the pair (trimmed `k0`, cleaned `v0`), and nothing when `k0` is blank |
| DotEnv.KeyShape | receive_orders.py:39 | the trimmed text before the first `=` is empty or a valid key |
| DotEnv.ParseLine | receive_orders.py:31-42 | blank lines, `#` lines, lines with no `=` and lines that start with `=` define nothing; every defined pair has a valid key and a clean value |
| DotEnv.ParseLineOf | receive_orders.py:31-42 | a trimmed line `k0=v0` that is neither a comment nor `export`-prefixed defines exactly the pair (trimmed `k0`, cleaned `v0`), or nothing when `k0` is blank |
| DotEnv.ExportLineOf | receive_orders.py:31-42 | a trimmed line `export <whitespace>k0=v0`, in any letter case, defines exactly the pair `k0=v0` alone defines |
| DotEnv.LineRoundTrip | receive_orders.py:31-40 | the line `k=v` yields exactly `(k, v)` for a valid, non-comment, non-`export` key and a clean value |
| DotEnv.ExportRoundTrip | receive_orders.py:34-35 | `export KEY=value`, in any letter case, defines what `KEY=value` defines |
| DotEnv.ExportedLine | receive_orders.py:34-35 | an `export`-prefixed trimmed line is not a comment and loses exactly its prefix |
| DotEnv.Load | receive_orders.py:28-45 | loading only adds keys and never changes the value of a key already present |
| DotEnv.LoadValue | receive_orders.py:43 | after loading, an existing key keeps its value; an absent key gets the value of the first line defining it; keys no line defines stay absent |
| DotEnv.LoadAppend | receive_orders.py:30-43 | loading `xs + ys` equals loading `xs` and then `ys` into the result |
| DotEnv.LoadIgnoresSkippedLine | receive_orders.py:32-42 | a line that defines nothing can be inserted anywhere without changing the result |
| DotEnv.LoadSkips | receive_orders.py:32-41 | blank lines, comment lines, lines without `=` and lines whose key is empty because they start with `=` change nothing |
| DotEnv.LoadIdempotent | receive_orders.py:43 | loading the same lines a second time changes nothing |
| DotEnv.LoadKeepsExisting | send_orders.py:56 | a variable already in the environment keeps its value whatever the file says |
| DotEnv.LoadFirstLineWins | send_orders.py:44-56 | among lines defining one key, the first one's value is loaded |
| DotEnv.FirstValueAppend | receive_orders.py:43 | lines before the first definition of a key do not affect which value it gets |
| Connection.Candidates | receive_orders.py:56 | two variables in priority order: the role's own variable first, the shared `EVENTHUB_CONNECTION_STRING` second |
| Connection.IsSet | receive_orders.py:57-58 | a variable counts when it is present and its value is not blank after `strip` |
| Connection.Lookup | receive_orders.py:56-59 | the trimmed value of the first non-blank variable in priority order; none exactly when no variable is set to a non-blank value |
| Connection.Resolve | receive_orders.py:48-64 | a non-blank CLI value wins and is trimmed; a resolved value is trimmed and non-empty; resolution fails exactly when the CLI value is blank and neither variable is non-blank after loading |
| Connection.ResolveCliWins | receive_orders.py:51-52 | with a non-blank CLI value, neither the file nor the environment matters |
| Connection.ResolveEnvironmentWins | receive_orders.py:54-59 | a role-specific variable already in the environment beats anything in the file |
| Connection.ResolveSharedFallback | receive_orders.py:56-59 | with no role-specific value anywhere, the environment's shared variable is used |
| Connection.ResolveFromFile | receive_orders.py:54-59 | a file holding only `EVENTHUB_CONNECTION_STRING=x` resolves to `x` for either role |
| Connection.ReceiveResolution | receive_orders.py:56-64 | the consumer consults `EVENTHUB_RECEIVE_CONNECTION_STRING`, then `EVENTHUB_CONNECTION_STRING`, and fails when neither is set |
| Connection.SendResolution | send_orders.py:64-78 | the producer consults `EVENTHUB_SEND_CONNECTION_STRING`, then `EVENTHUB_CONNECTION_STRING`, and fails when neither is set |
| Connection.ResolveOrder | send_orders.py:70-73 | the role variable is preferred over the shared one once loading is done |
| Connection.NamesEntityPathHasEquals | receive_orders.py:69-70 | a segment that passes the prefix test contains `=`, so the single split is defined |
| Connection.NamesEntityPath | receive_orders.py:69 | `segment.strip().lower().startswith("entitypath=")` |
| Connection.Segments | receive_orders.py:68 | `split(";")` of the connection string: at least one segment, none holding `;`, and joining them with `;` restores the string |
| Connection.EntityValue | receive_orders.py:70-71 | the value of an entity-path segment: the text after its first `=`, with surrounding whitespace stripped |
| Connection.Qualifies | receive_orders.py:69-72 | a segment is taken when its trimmed, lower-cased text starts with `entitypath=` and its value is not blank |
| Connection.FirstEntity | receive_orders.py:68-74 | success exactly when some segment qualifies; the value is that of the first qualifying segment, trimmed and non-empty |
| Connection.ExtractEntityPath | receive_orders.py:67-74 | the result is trimmed and non-empty; extraction fails exactly when no `;`-segment qualifies |
| Connection.HubName | send_orders.py:123-124 | a non-empty `--event-hub` is used as given; otherwise the entity path is extracted, and a failure is a missing entity path |
| Connection.HubNameFallback | send_orders.py:123-124 | an empty `--event-hub` behaves as none; without one, the example string opens `orders` and a string without an entity path fails, while a given name is used regardless |
| Connection.EntitySegment | receive_orders.py:69-72 | a segment `EntityPath=name` in any letter case, with a trimmed non-empty name, qualifies with value `name` |
| Connection.SegmentNamesEntityPath | receive_orders.py:69 | such a segment is already trimmed and passes the case-insensitive `entitypath=` test |
| Connection.KeyFreeOfEquals | receive_orders.py:70 | a key that lower-cases to `entitypath` holds no `=`, so the single split happens right after it |
| Connection.FirstEntityAt | receive_orders.py:68-73 | the first qualifying segment decides, whatever follows |
| Connection.ExtractFromJoin | receive_orders.py:68 | extraction from a `;`-join looks at exactly the joined segments |
| Connection.EntityPathFound | send_orders.py:110-115 | an `EntityPath=name` segment after non-qualifying segments is extracted, whatever follows it |
| Connection.EntityPathExample | receive_orders.py:67-73 | `Endpoint=sb://x;EntityPath=orders;SharedAccessKey=k` names the hub `orders` |
| Connection.EndpointDoesNotQualify | receive_orders.py:69 | an `Endpoint=` segment does not pass the prefix test |
| Connection.EntityPathSkipsBlank | receive_orders.py:71-73 | a matching segment with a blank value is skipped in favour of a later one |
| Connection.BlankEntityDoesNotQualify | receive_orders.py:71-72 | `EntityPath= ` does not qualify |
| Connection.KeyDoesNotQualify | receive_orders.py:69 | a `SharedAccessKey=` segment does not pass the prefix test |
| Connection.EntityPathMissing | receive_orders.py:74 | a connection string with no entity path segment fails to extract |
| Consumer.CleanIds | receive_orders.py:153 | every kept id is non-empty and trimmed; every non-blank input contributes its trimmed form; every kept id comes from some input; nothing is kept exactly when every input is blank |
| Consumer.NormalizeList | receive_orders.py:153 | no arguments or an empty list gives no filter; otherwise the filter holds non-empty trimmed ids, the trimmed form of every non-blank argument and nothing that is not an argument's trimmed form, and is empty exactly when every argument is blank |
| Consumer.NormalizeSet | receive_orders.py:153 | no filter or an empty set gives no filter; the result is active exactly when some given id is not blank, and then holds non-empty trimmed ids, the trimmed form of every non-blank id and nothing else |
| Consumer.ListIds | receive_orders.py:153 | the cleaned set of an argument list holds the trimmed form of every non-blank argument and nothing else, and is empty exactly when every argument is blank |
| Consumer.CleanIdsIdempotent | receive_orders.py:153 | cleaning cleaned ids changes nothing |
| Consumer.ReceiveFilterShape | receive_orders.py:127 | the final filter is absent or a non-empty set of trimmed ids; it is active exactly when some argument is not blank |
| Consumer.ReceiveFilterIdempotent | receive_orders.py:153 | the filter `receive_events` builds is a fixed point of its normalisation |
| Consumer.NormalizeSetStable | receive_orders.py:153 | normalising again keeps the filter's activity and, when active, the filter itself |
| Consumer.DecisionStable | receive_orders.py:127-130 | normalising twice decides every event as normalising once does |
| Consumer.OnEvent | receive_orders.py:120-140 | a body `json.loads` rejects raises `ValueError` or `RecursionError` whatever the filter; otherwise printed exactly when no filter is active or the payload is an object whose string `store_id` is in the filter, and it can be printed; `TypeError` exactly when a filter is active and `store_id` is an array or object; `UnicodeEncodeError` exactly when the event gets through the filter but cannot be printed; skipped otherwise |
| Consumer.Active | receive_orders.py:127 | `if store_filter`: a filter applies only when it is present and non-empty |
| Consumer.StoreId | receive_orders.py:128 | `payload.get("store_id")` for an object payload, and none for any other payload or a missing key |
| Consumer.LoadError | receive_orders.py:122-123 | the exception `json.loads` raises for a body it rejects other than by `JSONDecodeError`: `ValueError` for an over-long integer literal, `RecursionError` for too deep a nesting |
| Consumer.Printable | receive_orders.py:137 | `json.dumps(payload, ensure_ascii=False)` can be written to stdout: always for non-JSON text, which came from a UTF-8 decode, and per the document's flag otherwise |
| Consumer.Show | receive_orders.py:132-140 | the printing tail of `on_event`: printed when stdout can encode the payload, `UnicodeEncodeError` otherwise |
| Consumer.ReceiveFilter | receive_orders.py:207 | `main`'s set of trimmed non-blank arguments, normalised again by `receive_events` (line 153): no arguments give no filter, and a filter is never an empty set |
| Consumer.Start | receive_orders.py:161 | the initial state satisfies the budget invariant with nothing printed or checkpointed |
| Consumer.Step | receive_orders.py:164-171 | only printed events use budget; the stop signal is set once a bounded budget reaches zero and stays set; every event that does not raise is checkpointed |
| Consumer.MatchingMembers | receive_orders.py:164-166 | an event is in the printed list exactly when it was delivered and `on_event` prints it |
| Consumer.CheckpointedMembers | receive_orders.py:164-171 | an event is in the checkpoint list exactly when it was delivered and `on_event` does not raise on it |
| Consumer.Run | receive_orders.py:164-184 | the client calls `_on_event` for each delivered event in order; the budget stays bounded or unbounded, and a set stop signal stays set |
| Consumer.RunLogs | receive_orders.py:164-171 | a run prints exactly the matching events in order and checkpoints exactly the events that do not raise |
| Consumer.RunShown | receive_orders.py:166 | the printed log of a run extends by exactly the matching events |
| Consumer.RunCheckpointed | receive_orders.py:171 | the checkpoint log of a run extends by exactly the non-raising events |
| Consumer.UnfilteredTakesAll | receive_orders.py:127 | with no active filter an event is checkpointed exactly when it is printed, and every event whose body decodes and can be printed is printed |
| Consumer.CheckpointsEveryEvent | receive_orders.py:171 | when every body decodes, has a hashable `store_id` and can be printed, every event is checkpointed, matched or not |
| Consumer.StepKeepsBudget | receive_orders.py:167-170 | one event preserves the budget invariant: remaining is `max - printed`, and stopped exactly when `printed >= max` |
| Consumer.RunKeepsBudget | receive_orders.py:164-170 | any run preserves the budget invariant |
| Consumer.RunBudget | receive_orders.py:161-170 | from the start, the stop signal is set exactly when `max_events > 0` and at least that many events were printed; an unbounded run never stops |
| Consumer.FilterExample | receive_orders.py:127-140 | with filter `STORE-NY-001`, that store's order is printed, another store's is skipped, a non-JSON body is skipped, and all three are checkpointed |
| Consumer.FilterDecisions | receive_orders.py:127-140 | under filter `STORE-NY-001`, that store's order is printed, another store's order is skipped, and a non-JSON body is skipped |
| Consumer.UnhashableStoreId | receive_orders.py:128-129 | an array `store_id` under an active filter raises `TypeError` and changes no state |
| Consumer.LongIntegerRaises | receive_orders.py:121-123 | a body with an over-long integer literal raises `ValueError` under any filter and changes no state |
| Consumer.UnprintableRaisesWhenShown | receive_orders.py:127-137 | an unencodable order raises `UnicodeEncodeError` when it is shown, leaving the state unchanged, but is skipped and checkpointed under a filter for another store |
| Consumer.UnfilteredExample | receive_orders.py:161-170 | with no filter and `max_events = 1`, one non-JSON body is printed and sets the stop signal |
| Producer.BuildOrder | send_orders.py:81-106 | an order takes its store fields from one store and its product fields from one product, with quantity 1 to 5, a listed payment method, and one item whose total is the order total |
| Producer.BuildOrderComplete | send_orders.py:81-106 | every order with that shape can be built from some draw |
| Producer.StoreIdsDistinct | send_orders.py:26-31 | the catalog's store ids are pairwise different |
| Producer.SkusDistinct | send_orders.py:18-24 | the catalog's SKUs are pairwise different |
| Producer.OrderPairings | send_orders.py:91-97 | in all orders, a store id fixes city and region, and a SKU fixes the product name |
| Producer.Confirm | send_orders.py:138-139 | one more send extends the confirmation log by one, keeping the numbering |
| Producer.SleepError | send_orders.py:141-142 | on CPython for Linux, `time.sleep` accepts exactly the pauses from 0 up to 2^63 nanoseconds; it raises `ValueError` for a negative pause within that size and `OverflowError` for any larger one |
| Producer.Loop | send_orders.py:128-142 | confirmations are numbered 1, 2, 3 … for the drawn orders; a positive count bounds the sends and a finished loop sent exactly `count`; each other ending names its cause, and a failed pause is the last one drawn |
| Producer.SendOrders | send_orders.py:119-144 | the delay check fails before the hub name is looked at; a missing entity path fails next; neither sends anything |
| Producer.LoopSendsCount | send_orders.py:130-138 | with `count > 0` and no failure or interrupt, the loop finishes after exactly `count` sends |
| Producer.UnboundedNeverFinishes | send_orders.py:130 | with `count <= 0` the loop never finishes by itself; a corollary of `Loop`'s contract |
| Producer.UnboundedKeepsSending | send_orders.py:130-142 | with `count <= 0` and nothing stopping it, the loop sends in every observed iteration |
| Producer.NegativeDelaysSendAtMostOne | send_orders.py:141-142 | with a negative maximum delay at most one order goes out, and if one does, the pause after it raises; `ValueError` when the minimum delay is within the sleep range |
| Producer.FirstPauseNegative | send_orders.py:138-142 | a negative first pause stops the loop after the first send |
| Producer.SendMain | send_orders.py:175-201 | a resolution failure exits with 2; every exit status is 0, 1 or 2 |
| Producer.SendMainCodes | send_orders.py:184-197 | once resolved, the status is 1 exactly when `send_orders` raised, and 0 exactly when it finished or was interrupted |
| Producer.DelayCheckedFirst | send_orders.py:120-121 | `min_delay > max_delay` exits with 1 whatever the connection string holds, unless resolution already failed |
| Producer.MissingEntityPathExitsOne | send_orders.py:123-124 | no `--event-hub` and no entity path exits with 1 |
| Producer.CleanRunExitsZero | send_orders.py:128-142 | a clean run of `count > 0`, whose pauses can all be slept, exits with 0 after confirmations 1 to `count` for the drawn orders |
| Producer.CleanSend | send_orders.py:119-142 | a clean `send_orders` call, whose pauses can all be slept, finishes after exactly `count` sends |
| Producer.HugePauseSend | send_orders.py:119-142 | with a first pause of 2^63 nanoseconds or more, `send_orders` raises `OverflowError` after exactly one confirmation |
| Producer.HugePauseExitsOne | send_orders.py:141-142 | a first pause of 2^63 nanoseconds or more stops the run after one order with status 1, whatever `--count` asks for |

## Left out

- The Azure SDK is not modelled: clients, batches, the receive loop and checkpoint persistence. Client failure, send failure and the events delivered are inputs, and a checkpoint update is an entry in a log.
- File I/O is not modelled. The `.env` file is a list of lines; a missing file is the empty list. Errors other than `FileNotFoundError` (for example a decoding error) are not modelled.
- Global `os.environ` is an explicit map. Loading returns the new map instead of mutating the process.
- DotEnv.Load: `os.environ.setdefault` is a plain map insert that never fails. On CPython, storing a variable that is not yet set calls `putenv`, which raises `ValueError` for a key or value holding a NUL character. The loader does not catch it, so `resolve_connection_string` raises and `main` exits with 2, even when the connection string is already in the environment. The model stores such a value instead, and `Resolve` can succeed.
- DotEnv.Load: keys are case-sensitive, as on Linux. On Windows `os.environ` upper-cases keys, so `Foo` and `FOO` are one variable there, and a lower-case `eventhub_connection_string` line would also resolve.
- `random`, `uuid4` and `datetime.now` are draws passed in, and so is the pause passed to `time.sleep`; the exceptions `time.sleep` raises for it are modelled by `Producer.SleepError`. An order's id and timestamp are opaque strings.
- Producer.BuildOrder: prices are whole cents. The float `round(uniform(10, 250), 2)` becomes an integer from 1000 to 25000, and `round(unit_price * quantity, 2)` becomes the exact product. Float rounding error is not modelled.
- JSON is not modelled beyond what the filter inspects. Encoding, decoding and pretty-printing are out. A payload is an object, another JSON document, non-JSON text, or a body `json.loads` rejects with `ValueError` or `RecursionError`; a value is a string, number, boolean, null, array or object. Whether a document can be printed is a flag on it.
- Consumer.OnEvent: stdout is taken to be UTF-8 with strict errors, Python's default under a UTF-8 locale. Under the `surrogateescape` handler a lone surrogate from U+DC80 to U+DCFF does encode, and a narrower encoding such as ASCII cannot print other characters; the `printable` flag stands for whatever the actual stdout accepts. The recursion limit and the 4300-digit limit are CPython's defaults and are not parameters. An event that raises at the print has already had its raw text and partition line printed; console output is not modelled.
- Consumer.OnEvent: `event.body_as_str(encoding="UTF-8")` is not modelled; the body arrives as text, so a body that is not valid UTF-8 is not covered.
- Console output and `argparse` are not modelled. Arguments arrive already parsed, as `Option` values.
- `threading.Event` and concurrent partitions are not modelled. Events are processed one at a time in delivery order, and the stop signal is a flag. Events the client may still deliver after the signal are handled like any other.
- The consumer's `receive_events` and `main` exit statuses are not modelled. `extract_entity_path` and client construction run outside the `try`, so their exceptions escape uncaught. What the SDK does after `on_event` raises is also not modelled.
- Producer.Loop: a `count <= 0` run has no end, so it is observed for a given number of iterations. `Running` means "still looping". A Ctrl-C is modelled only between iterations, not in the middle of a send.
- Producer.SendMain: returns `None` while the loop is still running, because `main` has not returned at that point.
- Text.FoldedPrefix: `str.lower()` is modelled on ASCII letters only. This is exact for the prefixes `export ` and `entitypath=`: the only other characters that lower-case to ASCII are U+0130 and U+212A, and neither can complete those prefixes.
- Delays are reals. The NaN behaviour of float comparison is not modelled.
- Producer.SleepError: the limits are those of CPython on Linux, where `time.sleep` converts the pause to a signed 64-bit count of nanoseconds. Other platforms have other limits: CPython on Windows, for one, raises `OverflowError` for pauses of about 49.7 days and more. The pause is compared with 2^63 nanoseconds exactly. Python converts the float to nanoseconds with rounding first, so pauses within a rounding step of the limit may fall on the other side.
- Producer.SendMain: an `OverflowError` from `time.sleep` is not caught by `main`; the model gives it status 1, the status the interpreter exits with after printing the traceback. The traceback itself is not modelled.

=== FILE: connection.dfy ===
/**
 Where the scripts find their connection string and, inside it, the name of
 the Event Hub. The two scripts differ only in their role-specific
 environment variable.
 */
module Connection {
  import opened Wrappers
  import opened Text
  import opened DotEnv

  /** Which script is resolving: the producer or the consumer. */
  datatype Role = Send | Receive

  /** The `ValueError`s of resolution and entity-path extraction. */
  datatype ConfigError = MissingConnectionString | MissingEntityPath

  const SharedVariable := "EVENTHUB_CONNECTION_STRING"

  /** The connection-string variable of one script: the sender's or the receiver's. */
  function RoleVariable(role: Role): string {
    match role
    case Send => "EVENTHUB_SEND_CONNECTION_STRING"
    case Receive => "EVENTHUB_RECEIVE_CONNECTION_STRING"
  }

  /** The variables consulted, in priority order: the role's own variable,
      then the shared one. */
  function Candidates(role: Role): (names: seq<string>)
    ensures |names| == 2 && names[1] == SharedVariable && names[0] != SharedVariable
  {
    [RoleVariable(role), SharedVariable]
  }

  /** Set to a value that is not blank (`os.getenv(name)` is truthy after `strip`). */
  predicate IsSet(env: Env, name: string) {
    name in env && !IsBlank(env[name])
  }

  /** The trimmed value of the first of `names` that is set. */
  function Lookup(names: seq<string>, env: Env): (r: Option<string>)
    ensures r.None? <==> forall i :: 0 <= i < |names| ==> !IsSet(env, names[i])
    ensures r.Some? ==> r.value != [] && Strip(r.value, Whitespace) == r.value
    ensures r.Some? ==> exists i :: (0 <= i < |names| && IsSet(env, names[i])
      && r.value == Strip(env[names[i]], Whitespace)
      && forall j :: 0 <= j < i ==> !IsSet(env, names[j]))
  {
    if names == [] then None
    else if IsSet(env, names[0]) then
      StripIdempotent(env[names[0]], Whitespace);
      Some(Strip(env[names[0]], Whitespace))
    else
      var r := Lookup(names[1..], env);
      assert forall i :: 1 <= i < |names| ==> names[i] == names[1..][i - 1];
      r
  }

  /** `resolve_connection_string`: a non-blank CLI value, else the variables
      in priority order after loading the `.env` lines into the environment. */
  function Resolve(role: Role, cli: Option<string>, lines: seq<string>, env: Env): (r: Result<string, ConfigError>)
    ensures r.Ok? ==> r.value != [] && Strip(r.value, Whitespace) == r.value
    ensures r.Err? ==> r.error == MissingConnectionString
    ensures cli.Some? && !IsBlank(cli.value) ==> r == Ok(Strip(cli.value, Whitespace))
    ensures r.Err? <==> ((cli.None? || IsBlank(cli.value))
      && !IsSet(Load(lines, env), RoleVariable(role))
      && !IsSet(Load(lines, env), SharedVariable))
  {
    if cli.Some? && !IsBlank(cli.value) then
      StripIdempotent(cli.value, Whitespace);
      Ok(Strip(cli.value, Whitespace))
    else
      var loaded := Load(lines, env);
      var names := Candidates(role);
      assert names[0] == RoleVariable(role) && names[1] == SharedVariable;
      match Lookup(names, loaded)
      case Some(v) => Ok(v)
      case None => Err(MissingConnectionString)
  }

  /** A non-blank CLI value decides alone: neither the file nor the
      environment is consulted. */
  lemma ResolveCliWins(role: Role, cli: string, lines: seq<string>, env: Env, lines': seq<string>, env': Env)
    requires !IsBlank(cli)
    ensures Resolve(role, Some(cli), lines, env) == Resolve(role, Some(cli), lines', env')
    ensures Resolve(role, Some(cli), lines, env) == Ok(Strip(cli, Whitespace))
  {
  }

  /** Without a CLI value, a role-specific variable already in the
      environment wins over anything the file or the shared variable says. */
  lemma ResolveEnvironmentWins(role: Role, cli: Option<string>, lines: seq<string>, env: Env)
    requires cli.None? || IsBlank(cli.value)
    requires IsSet(env, RoleVariable(role))
    ensures Resolve(role, cli, lines, env) == Ok(Strip(env[RoleVariable(role)], Whitespace))
  {
    LoadKeepsExisting(lines, env, RoleVariable(role));
  }

  /** Without a CLI value or a role-specific value from either source, the
      shared variable of the environment wins over the file's shared value. */
  lemma ResolveSharedFallback(role: Role, cli: Option<string>, lines: seq<string>, env: Env)
    requires cli.None? || IsBlank(cli.value)
    requires RoleVariable(role) !in env && FirstValue(lines, RoleVariable(role)).None?
    requires IsSet(env, SharedVariable)
    ensures Resolve(role, cli, lines, env) == Ok(Strip(env[SharedVariable], Whitespace))
  {
    LoadValue(lines, env, RoleVariable(role));
    LoadKeepsExisting(lines, env, SharedVariable);
  }

  /** A file holding only `EVENTHUB_CONNECTION_STRING=x`, with nothing set in
      the environment or on the command line, resolves to `x`. */
  lemma ResolveFromFile(role: Role, x: string, env: Env)
    requires RoleVariable(role) !in env && SharedVariable !in env
    requires x != [] && Clean(x) == x
    ensures Resolve(role, None, [SharedVariable + "=" + x], env) == Ok(x)
  {
    var lines := [SharedVariable + "=" + x];
    var e := env[SharedVariable := x];
    assert Load(lines, env) == e by {
      SharedVariableIsKey();
      LineRoundTrip(SharedVariable, x);
      assert lines[1..] == [];
    }
    CleanFixpointTrimmed(x);
    assert RoleVariable(role) != SharedVariable;
    assert !IsSet(e, RoleVariable(role)) && IsSet(e, SharedVariable);
    ResolveOrder(role, lines, env);
  }

  /** `EVENTHUB_CONNECTION_STRING` is a key the loader can produce, and a line
      defining it is neither a comment nor `export`-prefixed. */
  lemma SharedVariableIsKey()
    ensures IsKey(SharedVariable) && SharedVariable[0] != '#' && !HasExportPrefix(SharedVariable)
  {
    assert LowerChar(SharedVariable[1]) == 'v';
    StripKeeps(SharedVariable, Whitespace);
  }

  /** The consumer's order: `EVENTHUB_RECEIVE_CONNECTION_STRING`, then
      `EVENTHUB_CONNECTION_STRING`, and an error when neither is set. */
  lemma ReceiveResolution(lines: seq<string>, env: Env)
    ensures var e := Load(lines, env);
      var r := Resolve(Receive, None, lines, env);
      && (IsSet(e, "EVENTHUB_RECEIVE_CONNECTION_STRING") ==>
            r == Ok(Strip(e["EVENTHUB_RECEIVE_CONNECTION_STRING"], Whitespace)))
      && (!IsSet(e, "EVENTHUB_RECEIVE_CONNECTION_STRING") && IsSet(e, "EVENTHUB_CONNECTION_STRING") ==>
            r == Ok(Strip(e["EVENTHUB_CONNECTION_STRING"], Whitespace)))
      && (r.Err? <==> !IsSet(e, "EVENTHUB_RECEIVE_CONNECTION_STRING") && !IsSet(e, "EVENTHUB_CONNECTION_STRING"))
  {
    ResolveOrder(Receive, lines, env);
  }

  /** The producer's order: `EVENTHUB_SEND_CONNECTION_STRING`, then
      `EVENTHUB_CONNECTION_STRING`, and an error when neither is set. */
  lemma SendResolution(lines: seq<string>, env: Env)
    ensures var e := Load(lines, env);
      var r := Resolve(Send, None, lines, env);
      && (IsSet(e, "EVENTHUB_SEND_CONNECTION_STRING") ==>
            r == Ok(Strip(e["EVENTHUB_SEND_CONNECTION_STRING"], Whitespace)))
      && (!IsSet(e, "EVENTHUB_SEND_CONNECTION_STRING") && IsSet(e, "EVENTHUB_CONNECTION_STRING") ==>
            r == Ok(Strip(e["EVENTHUB_CONNECTION_STRING"], Whitespace)))
      && (r.Err? <==> !IsSet(e, "EVENTHUB_SEND_CONNECTION_STRING") && !IsSet(e, "EVENTHUB_CONNECTION_STRING"))
  {
    ResolveOrder(Send, lines, env);
  }

  /** Without a CLI value, a set role variable wins over a set shared one, for either role. */
  lemma ResolveOrder(role: Role, lines: seq<string>, env: Env)
    ensures var e := Load(lines, env);
      var r := Resolve(role, None, lines, env);
      && (IsSet(e, RoleVariable(role)) ==> r == Ok(Strip(e[RoleVariable(role)], Whitespace)))
      && (!IsSet(e, RoleVariable(role)) && IsSet(e, SharedVariable) ==>
            r == Ok(Strip(e[SharedVariable], Whitespace)))
  {
    var e := Load(lines, env);
    var names := Candidates(role);
    assert names[1..] == [SharedVariable];
  }

  const EntityPathPrefix := "entitypath="

  /** A `;`-separated segment whose trimmed, lower-cased text starts with
      `entitypath=`. */
  predicate NamesEntityPath(segment: string) {
    FoldedPrefix(Strip(segment, Whitespace), EntityPathPrefix)
  }

  /** A segment that passes the prefix test holds `=`, so `split("=", 1)[1]` exists. */
  lemma NamesEntityPathHasEquals(segment: string)
    requires NamesEntityPath(segment)
    ensures '=' in segment
  {
    var t := Strip(segment, Whitespace);
    assert LowerChar(t[10]) == '=';
    StripWithin(segment, Whitespace, '=');
  }

  /** The trimmed text after the first `=` of an entity-path segment. */
  function EntityValue(segment: string): string
    requires NamesEntityPath(segment)
  {
    NamesEntityPathHasEquals(segment);
    Strip(AfterFirst(segment, '='), Whitespace)
  }

  /** A segment `extract_entity_path` accepts: it names the entity path and
      its value is not blank. */
  predicate Qualifies(segment: string) {
    NamesEntityPath(segment) && EntityValue(segment) != []
  }

  /** The value of the first qualifying segment. */
  function FirstEntity(segments: seq<string>): (r: Result<string, ConfigError>)
    ensures r.Ok? <==> exists i :: 0 <= i < |segments| && Qualifies(segments[i])
    ensures r.Ok? ==> exists i :: (0 <= i < |segments| && Qualifies(segments[i])
      && r.value == EntityValue(segments[i])
      && forall j :: 0 <= j < i ==> !Qualifies(segments[j]))
    ensures r.Ok? ==> r.value != [] && Strip(r.value, Whitespace) == r.value
    ensures r.Err? ==> r.error == MissingEntityPath
  {
    if segments == [] then Err(MissingEntityPath)
    else if Qualifies(segments[0]) then
      NamesEntityPathHasEquals(segments[0]);
      StripIdempotent(AfterFirst(segments[0], '='), Whitespace);
      Ok(EntityValue(segments[0]))
    else
      var r := FirstEntity(segments[1..]);
      assert forall i :: 1 <= i < |segments| ==> segments[i] == segments[1..][i - 1];
      r
  }

  /** `extract_entity_path`: the trimmed, non-empty value of the first
      `;`-separated segment naming `EntityPath` in any letter case. */
  function ExtractEntityPath(conn: string): (r: Result<string, ConfigError>)
    ensures r.Ok? ==> r.value != [] && Strip(r.value, Whitespace) == r.value
    ensures r.Ok? <==> exists i :: 0 <= i < |Segments(conn)| && Qualifies(Segments(conn)[i])
    ensures r.Err? ==> r.error == MissingEntityPath
  {
    FirstEntity(Segments(conn))
  }

  /** The Event Hub both scripts open: the `--event-hub` argument when it is
      a non-empty string (used as given, untrimmed), otherwise the entity path
      of the connection string. */
  function HubName(hub: Option<string>, conn: string): (r: Result<string, ConfigError>)
    ensures hub.Some? && hub.value != [] ==> r == Ok(hub.value)
    ensures r.Err? <==> ((hub.None? || hub.value == [])
      && forall i :: 0 <= i < |Segments(conn)| ==> !Qualifies(Segments(conn)[i]))
    ensures r.Err? ==> r.error == MissingEntityPath
  {
    if hub.Some? && hub.value != [] then Ok(hub.value) else ExtractEntityPath(conn)
  }

  /** An empty `--event-hub` is the same as none: both fall back to the
      connection string, so the example string opens `orders` and a string
      without an entity path fails, unless a name is given. */
  lemma HubNameFallback(conn: string, name: string)
    requires name != []
    ensures HubName(Some([]), conn) == HubName(None, conn) == ExtractEntityPath(conn)
    ensures HubName(None, Join(["Endpoint=sb://x", "EntityPath=orders", "SharedAccessKey=k"], ';')) == Ok("orders")
    ensures HubName(None, Join(["Endpoint=sb://x", "SharedAccessKey=k"], ';')) == Err(MissingEntityPath)
    ensures HubName(Some(name), Join(["Endpoint=sb://x", "SharedAccessKey=k"], ';')) == Ok(name)
  {
    EntityPathExample();
    EntityPathMissing();
  }

  /** `conn.split(";")`: at least one segment, none holding `;`, and joined
      back with `;` they give the connection string. */
  function Segments(conn: string): (segments: seq<string>)
    ensures |segments| >= 1 && forall i :: 0 <= i < |segments| ==> ';' !in segments[i]
    ensures Join(segments, ';') == conn
  {
    Split(conn, ';')
  }

  /** A segment `<EntityPath in any case>=<name>` qualifies, with `name` as
      its value. */
  lemma EntitySegment(key: string, name: string)
    requires |key| == 10 && FoldedPrefix(key, EntityPathPrefix[..10])
    requires name != [] && Strip(name, Whitespace) == name
    ensures Qualifies(key + "=" + name) && EntityValue(key + "=" + name) == name
  {
    SegmentNamesEntityPath(key, name);
    KeyFreeOfEquals(key);
    AfterFirstOf(key, '=', name);
  }

  /** The segment `key=name` is trimmed and passes the prefix test. */
  lemma SegmentNamesEntityPath(key: string, name: string)
    requires |key| == 10 && FoldedPrefix(key, EntityPathPrefix[..10])
    requires name != [] && Strip(name, Whitespace) == name
    ensures Strip(key + "=" + name, Whitespace) == key + "=" + name
    ensures NamesEntityPath(key + "=" + name)
  {
    var segment := key + "=" + name;
    assert LowerChar(key[0]) == 'e';
    assert segment[0] == key[0];
    assert segment[|segment| - 1] == name[|name| - 1];
    StripKeeps(segment, Whitespace);
    assert FoldedPrefix(segment, EntityPathPrefix) by {
      assert forall i :: 0 <= i < 10 ==> segment[i] == key[i];
      assert segment[10] == '=';
    }
  }

  /** A key that folds to `entitypath` holds no `=`. */
  lemma KeyFreeOfEquals(key: string)
    requires |key| == 10 && FoldedPrefix(key, EntityPathPrefix[..10])
    ensures '=' !in key
  {
    PrefixLetters();
    forall i | 0 <= i < |key| ensures key[i] != '=' {
      assert LowerChar(key[i]) == EntityPathPrefix[i] != '=';
    }
  }

  /** `entitypath` is made of letters: only its last character is `=`. */
  lemma PrefixLetters()
    ensures forall i :: 0 <= i < 10 ==> EntityPathPrefix[i] != '='
  {
    assert EntityPathPrefix == ['e', 'n', 't', 'i', 't', 'y', 'p', 'a', 't', 'h', '='];
  }

  /** The first qualifying segment decides. */
  lemma {:induction false} FirstEntityAt(segments: seq<string>, k: nat)
    requires k < |segments| && Qualifies(segments[k])
    requires forall j :: 0 <= j < k ==> !Qualifies(segments[j])
    ensures FirstEntity(segments) == Ok(EntityValue(segments[k]))
  {
    if k > 0 {
      assert !Qualifies(segments[0]);
      assert forall j :: 0 <= j < k - 1 ==> segments[1..][j] == segments[j + 1];
      FirstEntityAt(segments[1..], k - 1);
    }
  }

  /** Extraction from segments joined with `;` looks at exactly those segments. */
  lemma ExtractFromJoin(parts: seq<string>)
    requires |parts| >= 1 && forall i :: 0 <= i < |parts| ==> ';' !in parts[i]
    ensures ExtractEntityPath(Join(parts, ';')) == FirstEntity(parts)
  {
    SplitJoin(parts, ';');
  }

  /** Splicing `;`-free segments around a `;`-free segment keeps every part `;`-free. */
  lemma SeparatorFree(pre: seq<string>, segment: string, post: seq<string>)
    requires forall i :: 0 <= i < |pre| ==> ';' !in pre[i]
    requires ';' !in segment
    requires forall i :: 0 <= i < |post| ==> ';' !in post[i]
    ensures var parts := pre + [segment] + post;
      forall i :: 0 <= i < |parts| ==> ';' !in parts[i]
  {
    var parts := pre + [segment] + post;
    forall i | 0 <= i < |parts| ensures ';' !in parts[i] {
      if i < |pre| { assert parts[i] == pre[i]; }
      else if i == |pre| { assert parts[i] == segment; }
      else { assert parts[i] == post[i - |pre| - 1]; }
    }
  }

  /** A segment `<EntityPath in any case>=<name>` placed after segments that do
      not qualify is the one extracted, whatever follows it. */
  lemma EntityPathFound(pre: seq<string>, segment: string, key: string, name: string, post: seq<string>)
    requires forall i :: 0 <= i < |pre| ==> ';' !in pre[i] && !Qualifies(pre[i])
    requires segment == key + "=" + name
    requires |key| == 10 && FoldedPrefix(key, EntityPathPrefix[..10]) && ';' !in key
    requires name != [] && Strip(name, Whitespace) == name && ';' !in name
    requires forall i :: 0 <= i < |post| ==> ';' !in post[i]
    ensures ExtractEntityPath(Join(pre + [segment] + post, ';')) == Ok(name)
  {
    var parts := pre + [segment] + post;
    assert ';' !in segment;
    SeparatorFree(pre, segment, post);
    ExtractFromJoin(parts);
    EntitySegment(key, name);
    assert forall j :: 0 <= j < |pre| ==> parts[j] == pre[j];
    assert parts[|pre|] == segment;
    FirstEntityAt(parts, |pre|);
  }

  /** The connection string `Endpoint=sb://x;EntityPath=orders;SharedAccessKey=k`
      names the Event Hub `orders`. */
  lemma EntityPathExample()
    ensures ExtractEntityPath(Join(["Endpoint=sb://x", "EntityPath=orders", "SharedAccessKey=k"], ';')) == Ok("orders")
  {
    EndpointDoesNotQualify();
    OrdersSegment("EntityPath");
    EntityPathFound(["Endpoint=sb://x"], "EntityPath=orders", "EntityPath", "orders", ["SharedAccessKey=k"]);
    ThreeParts("Endpoint=sb://x", "EntityPath=orders", "SharedAccessKey=k");
  }

  /** The literal facts `EntityPathExample` and `EntityPathSkipsBlank` need
      about the segment `<key>=orders`. */
  lemma OrdersSegment(key: string)
    requires key == "EntityPath" || key == "entitypath"
    ensures FoldedPrefix(key, EntityPathPrefix[..10])
    ensures Strip("orders", Whitespace) == "orders"
    ensures key == "EntityPath" ==> "EntityPath=orders" == key + "=" + "orders"
    ensures key == "entitypath" ==> "entitypath=orders" == key + "=" + "orders"
  {
    StripKeeps("orders", Whitespace);
  }

  /** Sequence displays built up part by part, as `EntityPathFound` builds them. */
  lemma ThreeParts(a: string, b: string, c: string)
    ensures [a] + [b] + [c] == [a, b, c]
    ensures [a] + [b] + [] == [a, b]
  {
  }

  /** An `Endpoint=` segment does not pass the prefix test. */
  lemma EndpointDoesNotQualify()
    ensures !Qualifies("Endpoint=sb://x")
  {
    var first := "Endpoint=sb://x";
    StripKeeps(first, Whitespace);
    assert LowerChar(first[2]) == 'd';
  }

  /** In `EntityPath= ;entitypath=orders` the first matching segment has a
      blank value and is passed over in favour of the second. */
  lemma EntityPathSkipsBlank()
    ensures ExtractEntityPath(Join(["EntityPath= ", "entitypath=orders"], ';')) == Ok("orders")
  {
    BlankEntityDoesNotQualify();
    OrdersSegment("entitypath");
    EntityPathFound(["EntityPath= "], "entitypath=orders", "entitypath", "orders", []);
    ThreeParts("EntityPath= ", "entitypath=orders", "");
  }

  /** `EntityPath= ` names the entity path but its value is blank. */
  lemma BlankEntityDoesNotQualify()
    ensures !Qualifies("EntityPath= ")
  {
    BlankEntityPieces();
    AfterFirstOf("EntityPath", '=', " ");
    BlankSpace();
  }

  /** The segment `EntityPath= ` trimmed, and split into key, `=` and value. */
  lemma BlankEntityPieces()
    ensures Strip("EntityPath= ", Whitespace) == "EntityPath="
    ensures "EntityPath= " == "EntityPath" + "=" + " "
  {
    var first := "EntityPath= ";
    assert first[..|first| - 1] == "EntityPath=";
    StripKeeps("EntityPath=", Whitespace);
  }

  /** A single space is blank. */
  lemma BlankSpace()
    ensures Strip(" ", Whitespace) == []
  {
    assert " "[1..] == [];
  }

  /** `Endpoint=sb://x;SharedAccessKey=k` has no entity path: extraction fails. */
  lemma EntityPathMissing()
    ensures ExtractEntityPath(Join(["Endpoint=sb://x", "SharedAccessKey=k"], ';')) == Err(MissingEntityPath)
  {
    var parts := ["Endpoint=sb://x", "SharedAccessKey=k"];
    ExtractFromJoin(parts);
    EndpointDoesNotQualify();
    KeyDoesNotQualify();
    assert parts[1..] == ["SharedAccessKey=k"];
    assert parts[1..][1..] == [];
  }

  /** A `SharedAccessKey=` segment does not pass the prefix test. */
  lemma KeyDoesNotQualify()
    ensures !Qualifies("SharedAccessKey=k")
  {
    var segment := "SharedAccessKey=k";
    StripKeeps(segment, Whitespace);
    assert LowerChar(segment[0]) == 's';
  }
}

=== FILE: consumer.dfy ===
/**
 The receiving script's per-event logic: the `--store-id` filter, the
 decision `on_event` takes for one event, and the budget and checkpoint
 state its `_on_event` callback keeps across the events the client delivers.
 */
module Consumer {
  import opened Wrappers
  import opened Text

  /** A JSON value, as far as the filter looks into it: the filter compares
      strings and cannot hash an array or an object. */
  datatype Json = JString(text: string) | JNumber | JBool(b: bool) | JNull | JArray | JObject

  /** Why `json.loads` can fail with something other than `JSONDecodeError`:
      an integer literal longer than CPython's 4300-digit conversion limit
      (`ValueError`), or nesting deeper than the recursion limit
      (`RecursionError`). */
  datatype LoadFailure = LongInteger | DeepNesting

  /** An event body after `json.loads`: a JSON object, some other JSON
      document, text that is not JSON at all (kept as the raw string), or
      text on which `json.loads` raises an exception the callback does not
      catch. For a decoded document, `printable` says whether stdout can
      encode its pretty-printed form; one holding a lone surrogate escape
      such as `"\ud800"` cannot be written to a UTF-8 stdout. */
  datatype Payload =
    | Object(fields: map<string, Json>, printable: bool)
    | OtherJson(printable: bool)
    | NotJson(text: string)
    | Rejected(failure: LoadFailure)

  datatype Event = Event(partition: string, sequence: int, payload: Payload)

  /** The normalised `--store-id` values; `None` means no filter was given. */
  type Filter = Option<set<string>>

  /** The ids kept from raw `--store-id` values: each trimmed, blank ones
      dropped. Every kept id is non-empty and trimmed, every non-blank value
      contributes its trimmed form, and nothing else is kept. */
  function CleanIds(ids: set<string>): (r: set<string>)
    ensures forall y :: y in r ==> y != [] && Strip(y, Whitespace) == y
    ensures forall x :: x in ids && !IsBlank(x) ==> Strip(x, Whitespace) in r
    ensures forall y :: y in r ==> exists x :: x in ids && Strip(x, Whitespace) == y
    ensures r == {} <==> forall x :: x in ids ==> IsBlank(x)
  {
    var r := set x | x in ids && x != [] && Strip(x, Whitespace) != [] :: Strip(x, Whitespace);
    assert forall y :: y in r ==> y != [] && Strip(y, Whitespace) == y by {
      forall x | x in ids {
        StripIdempotent(x, Whitespace);
      }
    }
    r
  }

  /** `main`: the repeated `--store-id` arguments as a set; no arguments gives
      no filter. A filter holds the trimmed form of every non-blank argument
      and nothing else; it is empty exactly when every argument is blank. */
  function NormalizeList(ids: Option<seq<string>>): (r: Filter)
    ensures r.Some? <==> ids.Some? && ids.value != []
    ensures r.Some? ==> forall y :: y in r.value ==> y != [] && Strip(y, Whitespace) == y
    ensures r.Some? ==> forall i :: 0 <= i < |ids.value| && !IsBlank(ids.value[i]) ==>
      Strip(ids.value[i], Whitespace) in r.value
    ensures r.Some? ==> forall y :: y in r.value ==>
      exists i :: 0 <= i < |ids.value| && Strip(ids.value[i], Whitespace) == y
    ensures r.Some? ==> (r.value == {} <==> forall i :: 0 <= i < |ids.value| ==> IsBlank(ids.value[i]))
  {
    match ids
    case None => None
    case Some(list) =>
      if list == [] then None
      else
        ListIds(list);
        Some(CleanIds(set x | x in list))
  }

  /** The cleaned set of a list of arguments, argument by argument. */
  lemma ListIds(list: seq<string>)
    ensures var r := CleanIds(set x | x in list);
      && (forall i :: 0 <= i < |list| && !IsBlank(list[i]) ==> Strip(list[i], Whitespace) in r)
      && (forall y :: y in r ==> exists i :: 0 <= i < |list| && Strip(list[i], Whitespace) == y)
      && (r == {} <==> forall i :: 0 <= i < |list| ==> IsBlank(list[i]))
  {
    var r := CleanIds(set x | x in list);
    forall y | y in r ensures exists i :: 0 <= i < |list| && Strip(list[i], Whitespace) == y {
      var x :| x in list && Strip(x, Whitespace) == y;
      var i :| 0 <= i < |list| && list[i] == x;
    }
  }

  /** `receive_events`: the same normalisation applied again to the set it is
      given; an empty set counts as no filter. The result is active exactly
      when some given id is not blank, and then holds the trimmed form of
      every non-blank id and nothing else. */
  function NormalizeSet(ids: Filter): (r: Filter)
    ensures r.Some? <==> ids.Some? && ids.value != {}
    ensures Active(r) <==> ids.Some? && exists x :: x in ids.value && !IsBlank(x)
    ensures r.Some? ==> forall y :: y in r.value ==> y != [] && Strip(y, Whitespace) == y
    ensures r.Some? ==> forall x :: x in ids.value && !IsBlank(x) ==> Strip(x, Whitespace) in r.value
    ensures r.Some? ==> forall y :: y in r.value ==> exists x :: x in ids.value && Strip(x, Whitespace) == y
  {
    match ids
    case None => None
    case Some(s) => if s == {} then None else Some(CleanIds(s))
  }

  /** The filter `receive_events` hands to `on_event`: `main`'s set of the
      arguments, normalised again. It is `None` for no arguments, and
      otherwise `None` or a non-empty set of ids. */
  function ReceiveFilter(ids: Option<seq<string>>): (f: Filter)
    ensures ids.None? || ids.value == [] ==> f.None?
    ensures f.Some? ==> f.value != {}
  {
    NormalizeSet(NormalizeList(ids))
  }

  /** `if store_filter`: a filter applies only when it holds at least one id. */
  predicate Active(filter: Filter) {
    filter.Some? && filter.value != {}
  }

  /** Cleaning cleaned ids changes nothing. */
  lemma CleanIdsIdempotent(ids: set<string>)
    ensures CleanIds(CleanIds(ids)) == CleanIds(ids)
  {
    var once := CleanIds(ids);
    forall y ensures y in CleanIds(once) <==> y in once {
      if y in once {
        assert !IsBlank(y) && Strip(y, Whitespace) == y;
      }
    }
  }

  /** The filter the consumer ends up with is either absent or a non-empty
      set of trimmed, non-blank ids taken from the arguments; it is active
      exactly when some argument is not blank. */
  lemma ReceiveFilterShape(ids: Option<seq<string>>)
    ensures var f := ReceiveFilter(ids);
      f.Some? ==> f.value != {} && forall y :: y in f.value ==> y != [] && Strip(y, Whitespace) == y
    ensures Active(ReceiveFilter(ids)) <==>
      ids.Some? && exists i :: 0 <= i < |ids.value| && !IsBlank(ids.value[i])
  {
    var f1 := NormalizeList(ids);
    if f1.Some? {
      CleanIdsIdempotent(f1.value);
      var list := ids.value;
      if exists i :: 0 <= i < |list| && !IsBlank(list[i]) {
        var i :| 0 <= i < |list| && !IsBlank(list[i]);
        assert Strip(list[i], Whitespace) in f1.value;
      }
    }
  }

  /** Normalising a second time is idempotent: the filter `receive_events`
      builds is a fixed point of its own normalisation. */
  lemma ReceiveFilterIdempotent(ids: Option<seq<string>>)
    ensures NormalizeSet(ReceiveFilter(ids)) == ReceiveFilter(ids)
  {
    if ids.Some? && ids.value != [] {
      var once := CleanIds(set x | x in ids.value);
      assert NormalizeList(ids) == Some(once);
      CleanIdsIdempotent(set x | x in ids.value);
      assert NormalizeSet(Some(once)) == if once == {} then None else Some(once);
    }
  }

  /** Applied to any filter, normalisation reaches its fixed point after one
      step as far as `on_event` can tell: the same filter is active, with the
      same ids. */
  lemma NormalizeSetStable(ids: Filter)
    ensures Active(NormalizeSet(NormalizeSet(ids))) == Active(NormalizeSet(ids))
    ensures Active(NormalizeSet(ids)) ==> NormalizeSet(NormalizeSet(ids)) == NormalizeSet(ids)
  {
    if ids.Some? {
      CleanIdsIdempotent(ids.value);
    }
  }

  /** The exceptions `on_event` lets escape. */
  datatype Exception = TypeError | ValueError | RecursionError | UnicodeEncodeError

  /** What `on_event` does with one event. `Raised` means an exception
      escaped it, and the callback stops there. */
  datatype Decision = Printed | Skipped | Raised(error: Exception)

  /** The exception `json.loads` raises for a rejected body. */
  function LoadError(failure: LoadFailure): Exception {
    match failure
    case LongInteger => ValueError
    case DeepNesting => RecursionError
  }

  /** `print(json.dumps(payload, indent=2, ensure_ascii=False))` succeeds:
      the raw text of a non-JSON body came from a UTF-8 decode, so only a
      decoded document can hold what stdout cannot encode. */
  predicate Printable(payload: Payload) {
    (payload.Object? || payload.OtherJson?) ==> payload.printable
  }

  /** `payload.get("store_id")` for an object payload; `None` otherwise. */
  function StoreId(payload: Payload): Option<Json> {
    if payload.Object? && "store_id" in payload.fields then Some(payload.fields["store_id"]) else None
  }

  /** The event's `store_id` is a string among `ids`. */
  predicate Matches(payload: Payload, ids: set<string>) {
    payload.Object? && "store_id" in payload.fields
      && payload.fields["store_id"].JString? && payload.fields["store_id"].text in ids
  }

  /** The event's `store_id` is an array or an object, which a set cannot hold. */
  predicate Unhashable(payload: Payload) {
    payload.Object? && "store_id" in payload.fields
      && (payload.fields["store_id"].JArray? || payload.fields["store_id"].JObject?)
  }

  /** `on_event`: a body `json.loads` rejects raises before the filter is
      consulted. Otherwise, without an active filter every event is shown,
      and with one only objects whose `store_id` is one of the ids; an
      unhashable `store_id` raises `TypeError` in the membership test, and
      an event that is shown but cannot be encoded raises
      `UnicodeEncodeError` when its payload is printed. */
  function OnEvent(ev: Event, filter: Filter): (d: Decision)
    ensures ev.payload.Rejected? ==> d == Raised(LoadError(ev.payload.failure))
    ensures d == Printed <==>
      !ev.payload.Rejected? && (!Active(filter) || Matches(ev.payload, filter.value)) && Printable(ev.payload)
    ensures d == Skipped <==>
      !ev.payload.Rejected? && Active(filter) && !Matches(ev.payload, filter.value) && !Unhashable(ev.payload)
    ensures d == Raised(TypeError) <==> !ev.payload.Rejected? && Active(filter) && Unhashable(ev.payload)
    ensures d == Raised(UnicodeEncodeError) <==>
      !ev.payload.Rejected? && (!Active(filter) || Matches(ev.payload, filter.value)) && !Printable(ev.payload)
  {
    if ev.payload.Rejected? then Raised(LoadError(ev.payload.failure))
    else if !Active(filter) then Show(ev.payload)
    else match StoreId(ev.payload)
      case None => Skipped
      case Some(v) =>
        match v
        case JString(id) => if id in filter.value then Show(ev.payload) else Skipped
        case JArray => Raised(TypeError)
        case JObject => Raised(TypeError)
        case _ => Skipped
  }

  /** The printing half of `on_event`, reached once the filter lets the event through. */
  function Show(payload: Payload): Decision {
    if Printable(payload) then Printed else Raised(UnicodeEncodeError)
  }

  /** The state `_on_event` keeps: the remaining budget (`None` when
      unbounded; it may go below zero), whether the stop signal was set, the
      events printed and the events whose checkpoint was updated, in order. */
  datatype Dispatch = Dispatch(remaining: Option<int>, stopped: bool, shown: seq<Event>, checkpointed: seq<Event>)

  /** `remaining = max_events if max_events > 0 else None`: nothing printed
      or checkpointed yet, and the budget invariant holds from the start. */
  function Start(maxEvents: int): (st: Dispatch)
    ensures Budget(st, maxEvents) && st.shown == [] && st.checkpointed == []
  {
    Dispatch(if maxEvents > 0 then Some(maxEvents) else None, false, [], [])
  }

  /** `_on_event` for one event: a printed event uses up one unit of a
      bounded budget and sets the stop signal once the budget is spent; every
      event that does not raise has its checkpoint updated. */
  function Step(st: Dispatch, filter: Filter, ev: Event): (r: Dispatch)
    ensures r.shown == if OnEvent(ev, filter) == Printed then st.shown + [ev] else st.shown
    ensures r.checkpointed == if OnEvent(ev, filter).Raised? then st.checkpointed else st.checkpointed + [ev]
    ensures r.remaining.Some? <==> st.remaining.Some?
    ensures OnEvent(ev, filter) != Printed ==> r.remaining == st.remaining && r.stopped == st.stopped
    ensures OnEvent(ev, filter) == Printed && st.remaining.Some? ==>
      r.remaining.value == st.remaining.value - 1
      && (r.stopped <==> st.stopped || r.remaining.value <= 0)
    ensures st.remaining.None? ==> r.stopped == st.stopped
  {
    match OnEvent(ev, filter)
    case Raised(_) => st
    case Skipped => st.(checkpointed := st.checkpointed + [ev])
    case Printed =>
      var remaining := if st.remaining.Some? then Some(st.remaining.value - 1) else None;
      var stopped := st.stopped || (remaining.Some? && remaining.value <= 0);
      st.(remaining := remaining, stopped := stopped, shown := st.shown + [ev], checkpointed := st.checkpointed + [ev])
  }

  /** The callback applied to each delivered event in turn. The budget stays
      bounded or unbounded, and once the stop signal is set it stays set. */
  function Run(st: Dispatch, filter: Filter, events: seq<Event>): (r: Dispatch)
    ensures r.remaining.Some? <==> st.remaining.Some?
    ensures st.stopped ==> r.stopped
    decreases |events|
  {
    if events == [] then st else Run(Step(st, filter, events[0]), filter, events[1..])
  }

  /** The events `on_event` prints, in delivery order. */
  function Matching(events: seq<Event>, filter: Filter): seq<Event>
    decreases |events|
  {
    if events == [] then []
    else (if OnEvent(events[0], filter) == Printed then [events[0]] else []) + Matching(events[1..], filter)
  }

  /** The events whose checkpoint is updated: all but those that raise. */
  function Checkpointed(events: seq<Event>, filter: Filter): seq<Event>
    decreases |events|
  {
    if events == [] then []
    else (if OnEvent(events[0], filter).Raised? then [] else [events[0]]) + Checkpointed(events[1..], filter)
  }

  /** An event is printed exactly when it was delivered and `on_event`
      prints it. */
  lemma {:induction false} MatchingMembers(events: seq<Event>, filter: Filter)
    ensures forall e :: e in Matching(events, filter) <==> e in events && OnEvent(e, filter) == Printed
    decreases |events|
  {
    if events != [] {
      MatchingMembers(events[1..], filter);
      assert events == [events[0]] + events[1..];
    }
  }

  /** An event has its checkpoint updated exactly when it was delivered and
      `on_event` does not raise on it. */
  lemma {:induction false} CheckpointedMembers(events: seq<Event>, filter: Filter)
    ensures forall e :: e in Checkpointed(events, filter) <==> e in events && !OnEvent(e, filter).Raised?
    decreases |events|
  {
    if events != [] {
      CheckpointedMembers(events[1..], filter);
      assert events == [events[0]] + events[1..];
    }
  }

  /** Running the callback prints exactly the matching events and updates
      the checkpoint of exactly the events that do not raise. */
  lemma RunLogs(st: Dispatch, filter: Filter, events: seq<Event>)
    ensures Run(st, filter, events).shown == st.shown + Matching(events, filter)
    ensures Run(st, filter, events).checkpointed == st.checkpointed + Checkpointed(events, filter)
  {
    RunShown(st, filter, events);
    RunCheckpointed(st, filter, events);
  }

  /** The printed half of `RunLogs`. */
  lemma {:induction false} RunShown(st: Dispatch, filter: Filter, events: seq<Event>)
    ensures Run(st, filter, events).shown == st.shown + Matching(events, filter)
    decreases |events|
  {
    if events != [] {
      var next := Step(st, filter, events[0]);
      var rest := Matching(events[1..], filter);
      assert Run(st, filter, events) == Run(next, filter, events[1..]);
      RunShown(next, filter, events[1..]);
      if OnEvent(events[0], filter) == Printed {
        assert Matching(events, filter) == [events[0]] + rest;
        assert st.shown + [events[0]] + rest == st.shown + ([events[0]] + rest);
      } else {
        assert Matching(events, filter) == rest;
      }
    }
  }

  /** The checkpoint half of `RunLogs`. */
  lemma {:induction false} RunCheckpointed(st: Dispatch, filter: Filter, events: seq<Event>)
    ensures Run(st, filter, events).checkpointed == st.checkpointed + Checkpointed(events, filter)
    decreases |events|
  {
    if events != [] {
      var next := Step(st, filter, events[0]);
      var rest := Checkpointed(events[1..], filter);
      assert Run(st, filter, events) == Run(next, filter, events[1..]);
      RunCheckpointed(next, filter, events[1..]);
      if OnEvent(events[0], filter).Raised? {
        assert Checkpointed(events, filter) == rest;
      } else {
        assert Checkpointed(events, filter) == [events[0]] + rest;
        assert st.checkpointed + [events[0]] + rest == st.checkpointed + ([events[0]] + rest);
      }
    }
  }

  /** Without an active filter an event is checkpointed exactly when it is
      printed, and every event whose body decodes and can be printed is. */
  lemma {:induction false} UnfilteredTakesAll(events: seq<Event>, filter: Filter)
    requires !Active(filter)
    ensures Checkpointed(events, filter) == Matching(events, filter)
    ensures (forall i :: 0 <= i < |events| ==> !events[i].payload.Rejected? && Printable(events[i].payload)) ==>
      Matching(events, filter) == events
    decreases |events|
  {
    if events != [] {
      UnfilteredTakesAll(events[1..], filter);
    }
  }

  /** A body on which `on_event` cannot raise, whatever the filter: it
      decodes, its `store_id` is hashable, and stdout can encode it. */
  predicate Harmless(payload: Payload) {
    !payload.Rejected? && !Unhashable(payload) && Printable(payload)
  }

  /** Events whose bodies are harmless all have their checkpoint updated,
      matched or not. */
  lemma {:induction false} CheckpointsEveryEvent(events: seq<Event>, filter: Filter)
    requires forall i :: 0 <= i < |events| ==> Harmless(events[i].payload)
    ensures Checkpointed(events, filter) == events
    decreases |events|
  {
    if events != [] {
      assert Harmless(events[0].payload);
      CheckpointsEveryEvent(events[1..], filter);
    }
  }

  /** The budget invariant: a bounded run has `max - |shown|` left and is
      stopped exactly when it has printed `max` events; an unbounded run
      never stops. */
  predicate Budget(st: Dispatch, maxEvents: int) {
    if maxEvents > 0 then
      st.remaining == Some(maxEvents - |st.shown|) && (st.stopped <==> |st.shown| >= maxEvents)
    else
      st.remaining.None? && !st.stopped
  }

  /** One callback keeps the budget invariant, whatever `on_event` decides. */
  lemma StepKeepsBudget(st: Dispatch, maxEvents: int, filter: Filter, ev: Event)
    requires Budget(st, maxEvents)
    ensures Budget(Step(st, filter, ev), maxEvents)
  {
  }

  /** Every run of callbacks keeps the budget invariant. */
  lemma {:induction false} RunKeepsBudget(st: Dispatch, maxEvents: int, filter: Filter, events: seq<Event>)
    requires Budget(st, maxEvents)
    ensures Budget(Run(st, filter, events), maxEvents)
    decreases |events|
  {
    if events != [] {
      StepKeepsBudget(st, maxEvents, filter, events[0]);
      RunKeepsBudget(Step(st, filter, events[0]), maxEvents, filter, events[1..]);
    }
  }

  /** From the start state, the stop signal is set exactly when `max_events`
      is positive and at least that many events have been printed, and the
      remaining budget counts down by the printed events only. */
  lemma RunBudget(maxEvents: int, filter: Filter, events: seq<Event>)
    ensures var st := Run(Start(maxEvents), filter, events);
      st.stopped <==> maxEvents > 0 && |Matching(events, filter)| >= maxEvents
    ensures var st := Run(Start(maxEvents), filter, events);
      st.remaining == if maxEvents > 0 then Some(maxEvents - |Matching(events, filter)|) else None
  {
    RunKeepsBudget(Start(maxEvents), maxEvents, filter, events);
    RunLogs(Start(maxEvents), filter, events);
  }

  /** `OnEvent` depends on the filter only through whether it is active and
      which ids it holds, so normalising twice decides every event alike. */
  lemma DecisionStable(ev: Event, ids: Filter)
    ensures OnEvent(ev, NormalizeSet(NormalizeSet(ids))) == OnEvent(ev, NormalizeSet(ids))
  {
    NormalizeSetStable(ids);
  }

  /** With the filter `STORE-NY-001`, an order from that store is printed, one
      from another store is skipped, and a body that is not JSON is skipped
      but still checkpointed. */
  lemma FilterExample(p: string, seq1: int, seq2: int, seq3: int, text: string)
    ensures var f := Some({"STORE-NY-001"});
      var a := Event(p, seq1, Object(map["store_id" := JString("STORE-NY-001")], true));
      var b := Event(p, seq2, Object(map["store_id" := JString("STORE-SF-003")], true));
      var c := Event(p, seq3, NotJson(text));
      var st := Run(Start(0), f, [a, b, c]);
      st.shown == [a] && st.checkpointed == [a, b, c] && !st.stopped
  {
    var f := Some({"STORE-NY-001"});
    var a := Event(p, seq1, Object(map["store_id" := JString("STORE-NY-001")], true));
    var b := Event(p, seq2, Object(map["store_id" := JString("STORE-SF-003")], true));
    var c := Event(p, seq3, NotJson(text));
    FilterDecisions(a, b, c);
    var s1 := Step(Start(0), f, a);
    var s2 := Step(s1, f, b);
    var s3 := Step(s2, f, c);
    assert s1 == Dispatch(None, false, [a], [a]);
    assert s2 == Dispatch(None, false, [a], [a, b]);
    assert s3 == Dispatch(None, false, [a], [a, b, c]);
    assert [a, b, c][1..] == [b, c] && [b, c][1..] == [c] && [c][1..] == [];
    assert Run(Start(0), f, [a, b, c]) == Run(s1, f, [b, c]) == Run(s2, f, [c]) == Run(s3, f, []);
  }

  /** The three decisions of `FilterExample`. */
  lemma FilterDecisions(a: Event, b: Event, c: Event)
    requires a.payload == Object(map["store_id" := JString("STORE-NY-001")], true)
    requires b.payload == Object(map["store_id" := JString("STORE-SF-003")], true)
    requires c.payload.NotJson?
    ensures var f := Some({"STORE-NY-001"});
      OnEvent(a, f) == Printed && OnEvent(b, f) == Skipped && OnEvent(c, f) == Skipped
  {
    assert "STORE-SF-003" != "STORE-NY-001" by {
      assert "STORE-SF-003"[6] != "STORE-NY-001"[6];
    }
  }

  /** An order whose `store_id` is an array raises under an active filter:
      it is neither printed nor checkpointed, and the budget is untouched. */
  lemma UnhashableStoreId(st: Dispatch, id: string, p: string, n: int, ok: bool)
    ensures var ev := Event(p, n, Object(map["store_id" := JArray], ok));
      OnEvent(ev, Some({id})) == Raised(TypeError) && Step(st, Some({id}), ev) == st
  {
  }

  /** A body with an over-long integer literal raises `ValueError` in
      `json.loads`, whatever the filter: no budget is used and no checkpoint
      is updated. */
  lemma LongIntegerRaises(st: Dispatch, filter: Filter, p: string, n: int)
    ensures var ev := Event(p, n, Rejected(LongInteger));
      OnEvent(ev, filter) == Raised(ValueError) && Step(st, filter, ev) == st
  {
  }

  /** A document stdout cannot encode raises only once the filter has let it
      through: unfiltered it changes no state, while under a filter for
      another store it is skipped and checkpointed as usual. */
  lemma UnprintableRaisesWhenShown(st: Dispatch, p: string, n: int, store: string, other: string)
    requires store != other
    ensures var ev := Event(p, n, Object(map["store_id" := JString(store)], false));
      && OnEvent(ev, None) == Raised(UnicodeEncodeError) && Step(st, None, ev) == st
      && OnEvent(ev, Some({store})) == Raised(UnicodeEncodeError)
      && Step(st, Some({other}), ev) == st.(checkpointed := st.checkpointed + [ev])
  {
  }

  /** Without a filter a non-JSON body is printed and uses up the budget. */
  lemma UnfilteredExample(p: string, n: int, text: string)
    ensures var st := Step(Start(1), None, Event(p, n, NotJson(text)));
      st.stopped && st.remaining == Some(0) && |st.shown| == 1
  {
  }
}

=== FILE: dotenv.dfy ===
/**
 The best-effort `.env` loader both scripts carry. The file is a list of
 lines and the process environment an explicit map: loading returns the new
 environment instead of mutating a global one.
 */
module DotEnv {
  import opened Wrappers
  import opened Text

  type Env = map<string, string>

  /** Opening and closing curly quotes, stripped from values last. */
  const CurlyQuotes: set<char> := {'\U{201C}', '\U{201D}', '\U{2018}', '\U{2019}'}

  const ExportPrefix := "export "

  /** The value cleaning of the loader, in its fixed order: whitespace, then
      straight double quotes, then straight single quotes, then curly quotes. */
  function Clean(v: string): (r: string)
    ensures IsValue(r)
  {
    Strip(Strip(Strip(Strip(v, Whitespace), {'"'}), {'\''}), CurlyQuotes)
  }

  /** A value that cleaning leaves alone has no surrounding whitespace. */
  lemma CleanFixpointTrimmed(v: string)
    requires Clean(v) == v
    ensures Strip(v, Whitespace) == v
  {
    var a := Strip(v, Whitespace);
    var b := Strip(a, {'"'});
    var c := Strip(b, {'\''});
    assert |Clean(v)| <= |c| <= |b| <= |a| <= |v|;
  }

  /** The raw line with surrounding whitespace removed: it neither begins
      nor ends with whitespace. */
  function Line(raw: string): (line: string)
    ensures line == [] || (line[0] !in Whitespace && line[|line| - 1] !in Whitespace)
    ensures |line| <= |raw|
  {
    Strip(raw, Whitespace)
  }

  /** True when the line starts with `export ` in any letter case. */
  predicate HasExportPrefix(line: string) {
    FoldedPrefix(line, ExportPrefix)
  }

  /** The line with a case-insensitive `export ` prefix and the whitespace
      after it removed. */
  function Unexport(line: string): (r: string)
    ensures forall c :: c in r ==> c in line
  {
    if HasExportPrefix(line) then
      var rest := line[|ExportPrefix|..];
      var r := LStrip(rest, Whitespace);
      assert forall c :: c in r ==> c in rest;
      r
    else line
  }

  /** A key the loader can produce: non-empty, free of `=`, trimmed. */
  predicate IsKey(k: string) {
    k != [] && '=' !in k && Strip(k, Whitespace) == k
  }

  /** A value the loader can produce neither begins nor ends with a curly quote. */
  predicate IsValue(v: string) {
    v == [] || (v[0] !in CurlyQuotes && v[|v| - 1] !in CurlyQuotes)
  }

  /** The `KEY=value` split of a line once comments and `export ` are dealt
      with: the key is the trimmed text before the first `=`, the value the
      cleaned text after it. */
  function Entry(body: string): (r: Option<(string, string)>)
    ensures '=' !in body ==> r.None?
    ensures body != [] && body[0] == '=' ==> r.None?
    ensures r.Some? ==> IsKey(r.value.0) && IsValue(r.value.1)
  {
    match Find(body, '=')
    case None => None
    case Some(i) =>
      var key := Strip(body[..i], Whitespace);
      KeyShape(body[..i]);
      if key == [] then None else Some((key, Clean(body[i + 1..])))
  }

  /** The trimmed text before the first `=` is either empty or a key the
      loader can produce. */
  lemma KeyShape(text: string)
    requires '=' !in text
    ensures var key := Strip(text, Whitespace); key == [] || IsKey(key)
  {
    var key := Strip(text, Whitespace);
    StripIdempotent(text, Whitespace);
    if '=' in key {
      StripWithin(text, Whitespace, '=');
    }
  }

  /** One line of the file: the key/value pair it defines, or `None` when the
      loader skips it (blank, comment, no `=`, or empty key). */
  function ParseLine(raw: string): (r: Option<(string, string)>)
    ensures Line(raw) == [] ==> r.None?
    ensures Line(raw) != [] && Line(raw)[0] == '#' ==> r.None?
    ensures Line(raw) != [] && Line(raw)[0] == '=' ==> r.None?
    ensures '=' !in raw ==> r.None?
    ensures r.Some? ==> IsKey(r.value.0) && IsValue(r.value.1)
  {
    var line := Line(raw);
    if line == [] || line[0] == '#' then None
    else
      var body := Unexport(line);
      assert line[0] == '=' ==> body == line by {
        if line[0] == '=' {
          assert LowerChar(line[0]) == '=';
        }
      }
      if '=' in body then StripWithin(raw, Whitespace, '='); Entry(body)
      else Entry(body)
  }

  /** Which pair a body defines: split at its first `=` into `k0` and `v0`,
      the pair is the trimmed `k0` with the cleaned `v0`, and there is none
      when `k0` is blank. */
  lemma EntryOf(k0: string, v0: string)
    requires '=' !in k0
    ensures Entry(k0 + "=" + v0) ==
      if Strip(k0, Whitespace) == [] then None else Some((Strip(k0, Whitespace), Clean(v0)))
  {
    var body := k0 + "=" + v0;
    FindAfterPrefix(k0, '=', v0);
    assert body[..|k0|] == k0;
    assert body[|k0| + 1..] == v0;
  }

  /** What `Unexport` removes: a case-insensitive `export ` and the whole run
      of whitespace after it, nothing more. */
  lemma UnexportOf(p: string, ws: string, rest: string)
    requires |p| == |ExportPrefix| && FoldedPrefix(p, ExportPrefix)
    requires forall i :: 0 <= i < |ws| ==> ws[i] in Whitespace
    requires rest == [] || rest[0] !in Whitespace
    ensures Unexport(p + ws + rest) == rest
  {
    var line := p + ws + rest;
    assert HasExportPrefix(line) by {
      assert forall i :: 0 <= i < |p| ==> line[i] == p[i];
    }
    assert line[|ExportPrefix|..] == ws + rest;
    LStripRun(ws, rest, Whitespace);
  }

  /** Which pair a line without `export ` defines: once trimmed it is
      `k0=v0` with `k0` free of `=` and not a comment, and the pair is that
      of `EntryOf`. */
  lemma ParseLineOf(raw: string, k0: string, v0: string)
    requires Line(raw) == k0 + "=" + v0 && '=' !in k0
    requires k0 == [] || k0[0] != '#'
    requires !HasExportPrefix(Line(raw))
    ensures ParseLine(raw) ==
      if Strip(k0, Whitespace) == [] then None else Some((Strip(k0, Whitespace), Clean(v0)))
  {
    var line := Line(raw);
    assert line[0] == if k0 == [] then '=' else k0[0];
    assert '=' in line by { assert line[|k0|] == '='; }
    StripWithin(raw, Whitespace, '=');
    EntryOf(k0, v0);
  }

  /** Which pair an `export ` line defines: once trimmed it is the prefix in
      any letter case, a run of whitespace, then `k0=v0`; the pair is the
      one `k0=v0` alone defines. */
  lemma ExportLineOf(raw: string, p: string, ws: string, k0: string, v0: string)
    requires |p| == |ExportPrefix| && FoldedPrefix(p, ExportPrefix)
    requires forall i :: 0 <= i < |ws| ==> ws[i] in Whitespace
    requires Line(raw) == p + ws + (k0 + "=" + v0) && '=' !in k0
    requires k0 == [] || k0[0] !in Whitespace
    ensures ParseLine(raw) ==
      if Strip(k0, Whitespace) == [] then None else Some((Strip(k0, Whitespace), Clean(v0)))
  {
    var line := Line(raw);
    var body := k0 + "=" + v0;
    assert line[0] == p[0];
    assert LowerChar(p[0]) == 'e';
    assert body[0] == if k0 == [] then '=' else k0[0];
    UnexportOf(p, ws, body);
    assert body[|k0|] == '=';
    EntryOf(k0, v0);
  }

  /** The line `k=v` gives back `(k, v)` when the key is one the loader can
      produce and is neither a comment nor an `export ` prefix, and the value
      is already clean. */
  lemma LineRoundTrip(k: string, v: string)
    requires IsKey(k) && k[0] != '#' && !HasExportPrefix(k)
    requires Clean(v) == v
    ensures ParseLine(k + "=" + v) == Some((k, v))
  {
    var line := k + "=" + v;
    CleanFixpointTrimmed(v);
    assert line[0] == k[0];
    assert line[|line| - 1] == if v == [] then '=' else v[|v| - 1];
    StripKeeps(line, Whitespace);
    assert !HasExportPrefix(line) by {
      if |k| < |ExportPrefix| && |line| >= |ExportPrefix| {
        assert LowerChar(line[|k|]) == '=';
      }
    }
    FindAfterPrefix(k, '=', v);
    assert line[..|k|] == k;
    assert line[|k| + 1..] == v;
  }

  /** `export KEY=value` and `KEY=value` define the same pair, whatever the
      letter case of `export`. */
  lemma ExportRoundTrip(p: string, rest: string)
    requires |p| == |ExportPrefix| && FoldedPrefix(p, ExportPrefix)
    requires rest != [] && Line(rest) == rest && rest[0] != '#' && !HasExportPrefix(rest)
    ensures ParseLine(p + rest) == ParseLine(rest)
  {
    ExportedLine(p, rest);
    assert Unexport(rest) == rest;
  }

  /** The pieces of `ExportRoundTrip`: the prefixed line is already trimmed,
      is not a comment, and loses exactly its prefix. */
  lemma ExportedLine(p: string, rest: string)
    requires |p| == |ExportPrefix| && FoldedPrefix(p, ExportPrefix)
    requires rest != [] && Line(rest) == rest
    ensures Line(p + rest) == p + rest
    ensures (p + rest)[0] != '#'
    ensures Unexport(p + rest) == rest
  {
    var line := p + rest;
    assert line[0] == p[0];
    assert LowerChar(p[0]) == 'e';
    assert line[|line| - 1] == rest[|rest| - 1];
    StripKeeps(line, Whitespace);
    assert line[7..] == rest;
    assert LStrip(rest, Whitespace) == rest;
  }

  /** `os.environ.setdefault(key, value)` for every line in order. */
  function Load(lines: seq<string>, env: Env): (e: Env)
    ensures env.Keys <= e.Keys
    ensures forall k :: k in env ==> e[k] == env[k]
    decreases |lines|
  {
    if lines == [] then env
    else
      var next := match ParseLine(lines[0])
        case Some((k, v)) => if k in env then env else env[k := v]
        case None => env;
      Load(lines[1..], next)
  }

  /** The value the first line defining `k` gives it, if any line does. */
  function FirstValue(lines: seq<string>, k: string): Option<string>
    decreases |lines|
  {
    if lines == [] then None
    else match ParseLine(lines[0])
      case Some((k', v)) => if k' == k then Some(v) else FirstValue(lines[1..], k)
      case None => FirstValue(lines[1..], k)
  }

  /** The environment after loading, key by key: an existing variable keeps
      its value; otherwise the first line that defines the key wins; keys no
      line defines stay absent. */
  lemma {:induction false} LoadValue(lines: seq<string>, env: Env, k: string)
    ensures k in env ==> k in Load(lines, env) && Load(lines, env)[k] == env[k]
    ensures k !in env ==> match FirstValue(lines, k)
      case Some(v) => k in Load(lines, env) && Load(lines, env)[k] == v
      case None => k !in Load(lines, env)
    decreases |lines|
  {
    if lines != [] {
      var next := match ParseLine(lines[0])
        case Some((k', v)) => if k' in env then env else env[k' := v]
        case None => env;
      LoadValue(lines[1..], next, k);
    }
  }

  /** Loading a file in two pieces is loading the first piece and then the
      second into the result. */
  lemma {:induction false} LoadAppend(xs: seq<string>, ys: seq<string>, env: Env)
    ensures Load(xs + ys, env) == Load(ys, Load(xs, env))
    decreases |xs|
  {
    if xs != [] {
      assert (xs + ys)[1..] == xs[1..] + ys;
      var next := match ParseLine(xs[0])
        case Some((k, v)) => if k in env then env else env[k := v]
        case None => env;
      LoadAppend(xs[1..], ys, next);
    } else {
      assert xs + ys == ys;
    }
  }

  /** A line the loader skips can be added anywhere without effect. */
  lemma LoadIgnoresSkippedLine(xs: seq<string>, line: string, ys: seq<string>, env: Env)
    requires ParseLine(line).None?
    ensures Load(xs + [line] + ys, env) == Load(xs + ys, env)
  {
    LoadAppend(xs + [line], ys, env);
    LoadAppend(xs, [line], env);
    LoadAppend(xs, ys, env);
  }

  /** Blank lines, comments, lines without `=` and lines whose key is empty
      are skipped. */
  lemma LoadSkips(xs: seq<string>, raw: string, ys: seq<string>, env: Env)
    requires || Line(raw) == []
             || Line(raw)[0] == '#'
             || Line(raw)[0] == '='
             || '=' !in raw
    ensures Load(xs + [raw] + ys, env) == Load(xs + ys, env)
  {
    LoadIgnoresSkippedLine(xs, raw, ys, env);
  }

  /** Loading the same file twice gives the environment loading it once gives. */
  lemma LoadIdempotent(lines: seq<string>, env: Env)
    ensures Load(lines, Load(lines, env)) == Load(lines, env)
  {
    var once := Load(lines, env);
    var twice := Load(lines, once);
    forall k | k in once
      ensures k in twice && twice[k] == once[k]
    {
      LoadValue(lines, once, k);
    }
    forall k | k in twice
      ensures k in once
    {
      LoadValue(lines, once, k);
      LoadValue(lines, env, k);
    }
  }

  /** A key already in the environment keeps its value whatever the file says. */
  lemma LoadKeepsExisting(lines: seq<string>, env: Env, k: string)
    requires k in env
    ensures k in Load(lines, env) && Load(lines, env)[k] == env[k]
  {
    LoadValue(lines, env, k);
  }

  /** Among lines defining the same key, the first wins. */
  lemma LoadFirstLineWins(xs: seq<string>, k: string, v: string, ys: seq<string>, env: Env)
    requires k !in env
    requires FirstValue(xs, k).None?
    requires IsKey(k) && k[0] != '#' && !HasExportPrefix(k) && Clean(v) == v
    ensures k in Load(xs + [k + "=" + v] + ys, env)
    ensures Load(xs + [k + "=" + v] + ys, env)[k] == v
  {
    LineRoundTrip(k, v);
    FirstValueAppend(xs, [k + "=" + v] + ys, k);
    assert xs + [k + "=" + v] + ys == xs + ([k + "=" + v] + ys);
    LoadValue(xs + [k + "=" + v] + ys, env, k);
  }

  /** Lines that do not define `k` can be put in front without changing
      which value `k` first gets. */
  lemma {:induction false} FirstValueAppend(xs: seq<string>, ys: seq<string>, k: string)
    requires FirstValue(xs, k).None?
    ensures FirstValue(xs + ys, k) == FirstValue(ys, k)
    decreases |xs|
  {
    if xs != [] {
      assert (xs + ys)[1..] == xs[1..] + ys;
      FirstValueAppend(xs[1..], ys, k);
    } else {
      assert xs + ys == ys;
    }
  }

  /** A line with a quoted value: `'"x"'` keeps its inner double quotes,
      because double quotes are stripped before single quotes. */
  lemma CleanOrderMatters()
    ensures Clean("'\"x\"'") == "\"x\""
    ensures Clean("\"'x'\"") == "x"
  {
    var a := "'\"x\"'";
    StripKeeps(a, Whitespace);
    StripKeeps(a, {'"'});
    assert Strip(a, {'\''}) == "\"x\"" by {
      assert a[1..] == "\"x\"'";
      assert a[1..][..3] == "\"x\"";
      StripKeeps("\"x\"", {'\''});
    }
    StripKeeps("\"x\"", CurlyQuotes);
    var b := "\"'x'\"";
    StripKeeps(b, Whitespace);
    assert Strip(b, {'"'}) == "'x'" by {
      assert b[1..] == "'x'\"";
      assert b[1..][..3] == "'x'";
      StripKeeps("'x'", {'"'});
    }
    assert Strip("'x'", {'\''}) == "x" by {
      assert "'x'"[1..] == "x'";
      assert "x'"[..1] == "x";
      StripKeeps("x", {'\''});
    }
    StripKeeps("x", CurlyQuotes);
  }
}

=== FILE: producer.dfy ===
/**
 The sending script: the shape of one simulated order, the send loop with
 its count rule, the checks that run before it, and the exit status `main`
 returns. Random choices, the Azure client and the user's Ctrl-C are inputs.
 */
module Producer {
  import opened Wrappers
  import opened Text
  import opened DotEnv
  import opened Connection

  datatype Product = Product(sku: string, name: string)

  datatype Store = Store(storeId: string, city: string, region: string)

  /** `PRODUCT_CATALOG`. */
  const Catalog: seq<Product> := [
    Product("SKU-1000", "Wireless Mouse"),
    Product("SKU-1001", "Mechanical Keyboard"),
    Product("SKU-1002", "27in Monitor"),
    Product("SKU-1003", "USB-C Hub"),
    Product("SKU-1004", "Noise Cancelling Headphones")
  ]

  /** `STORE_LOCATIONS`. */
  const Stores: seq<Store> := [
    Store("STORE-NY-001", "New York", "US-East"),
    Store("STORE-CHI-002", "Chicago", "US-Central"),
    Store("STORE-SF-003", "San Francisco", "US-West"),
    Store("STORE-LON-004", "London", "EU-West")
  ]

  /** The payment methods an order draws from. */
  const PaymentMethods: seq<string> := ["credit_card", "debit_card", "cash", "mobile_wallet"]

  type ProductIndex = i: nat | i < 5
  type StoreIndex = i: nat | i < 4
  type PaymentIndex = i: nat | i < 4

  /** `random.randint(1, 5)`. */
  type Quantity = q: int | 1 <= q <= 5 witness 1

  /** `round(random.uniform(10.0, 250.0), 2)`, counted in cents. */
  type UnitCents = c: int | 1000 <= c <= 25000 witness 1000

  /** The random choices behind one order, and the identifier and timestamp
      `uuid4` and the clock supply. */
  datatype Draw = Draw(
    product: ProductIndex, store: StoreIndex, unitPrice: UnitCents, quantity: Quantity,
    payment: PaymentIndex, loyalty: bool, orderId: string, timestamp: string)

  /** The only line item of an order; prices in cents. */
  datatype Item = Item(sku: string, name: string, quantity: int, unitPrice: int, totalPrice: int)

  /** The JSON object `build_order_event` returns. */
  datatype Order = Order(
    orderId: string, timestamp: string, storeId: string, storeRegion: string, storeCity: string,
    items: seq<Item>, paymentMethod: string, orderTotal: int, loyaltyMember: bool)

  /** The structural promises of an order: store fields from one store,
      product fields from one product, a quantity of 1 to 5, a known payment
      method, and one item whose total is the order total. */
  predicate WellFormed(o: Order) {
    (exists s :: 0 <= s < |Stores| && Stores[s] == Store(o.storeId, o.storeCity, o.storeRegion))
    && |o.items| == 1
    && (exists p :: 0 <= p < |Catalog| && Catalog[p] == Product(o.items[0].sku, o.items[0].name))
    && 1 <= o.items[0].quantity <= 5
    && 1000 <= o.items[0].unitPrice <= 25000
    && o.items[0].totalPrice == o.items[0].unitPrice * o.items[0].quantity
    && o.items[0].totalPrice == o.orderTotal
    && o.paymentMethod in PaymentMethods
  }

  /** `build_order_event` for given choices. */
  function BuildOrder(d: Draw): (o: Order)
    ensures WellFormed(o)
    ensures o.orderId == d.orderId && o.timestamp == d.timestamp && o.loyaltyMember == d.loyalty
  {
    var product := Catalog[d.product];
    var location := Stores[d.store];
    var total := d.unitPrice * d.quantity;
    Order(d.orderId, d.timestamp, location.storeId, location.region, location.city,
      [Item(product.sku, product.name, d.quantity, d.unitPrice, total)],
      PaymentMethods[d.payment], total, d.loyalty)
  }

  /** Every well-formed order is one `build_order_event` can return. */
  lemma BuildOrderComplete(o: Order)
    requires WellFormed(o)
    ensures exists d: Draw :: BuildOrder(d) == o
  {
    var s :| 0 <= s < |Stores| && Stores[s] == Store(o.storeId, o.storeCity, o.storeRegion);
    var p :| 0 <= p < |Catalog| && Catalog[p] == Product(o.items[0].sku, o.items[0].name);
    var m :| 0 <= m < |PaymentMethods| && PaymentMethods[m] == o.paymentMethod;
    var d := Draw(p, s, o.items[0].unitPrice, o.items[0].quantity, m, o.loyaltyMember, o.orderId, o.timestamp);
    assert BuildOrder(d).items == o.items;
  }

  /** Store ids tell the stores apart (their seventh characters differ). */
  lemma StoreIdsDistinct(i: StoreIndex, j: StoreIndex)
    ensures Stores[i].storeId == Stores[j].storeId ==> i == j
  {
    var initials := "NCSL";
    assert forall k: StoreIndex :: Stores[k].storeId[6] == initials[k];
  }

  /** SKUs tell the products apart (their eighth characters differ). */
  lemma SkusDistinct(i: ProductIndex, j: ProductIndex)
    ensures Catalog[i].sku == Catalog[j].sku ==> i == j
  {
    var digits := "01234";
    assert forall k: ProductIndex :: Catalog[k].sku[7] == digits[k];
  }

  /** In every order the store id determines the city and region, and the
      SKU determines the product name. */
  lemma OrderPairings(d1: Draw, d2: Draw)
    ensures BuildOrder(d1).storeId == BuildOrder(d2).storeId ==>
      BuildOrder(d1).storeCity == BuildOrder(d2).storeCity
      && BuildOrder(d1).storeRegion == BuildOrder(d2).storeRegion
    ensures BuildOrder(d1).items[0].sku == BuildOrder(d2).items[0].sku ==>
      BuildOrder(d1).items[0].name == BuildOrder(d2).items[0].name
  {
    StoreIdsDistinct(d1.store, d2.store);
    SkusDistinct(d1.product, d2.product);
  }

  /** The `[n] Sent order ...` line printed after each successful send. */
  datatype Confirmation = Confirmation(counter: int, order: Order)

  /** Why `send_orders` stopped with an exception: the delay check, a missing
      entity path, the client refusing the connection string, a failed send,
      `time.sleep` refusing a negative pause (`ValueError`), or `time.sleep`
      unable to convert a pause of 2^63 nanoseconds or more in size to its
      clock type (`OverflowError`, which `main` does not catch). */
  datatype Failure = DelayOrder | NoEntityPath | ClientRejected | SendRejected | NegativePause | PauseOverflow

  /** 2^63 nanoseconds in seconds: the size of pause `time.sleep` cannot convert. */
  const SleepLimit: real := 9223372036.854775808

  /** The exception `time.sleep(pause)` raises, if any. The conversion to
      nanoseconds comes first, so a pause below `-SleepLimit` overflows
      rather than being reported as negative. */
  function SleepError(pause: real): (r: Option<Failure>)
    ensures r.None? <==> 0.0 <= pause < SleepLimit
    ensures r == Some(NegativePause) <==> -SleepLimit <= pause < 0.0
    ensures r.Some? ==> r.value == NegativePause || r.value == PauseOverflow
  {
    if pause < -SleepLimit || pause >= SleepLimit then Some(PauseOverflow)
    else if pause < 0.0 then Some(NegativePause)
    else None
  }

  /** How far `send_orders` got: it returned, the user interrupted it, it
      raised, or it was still looping when observation stopped. The log holds
      the confirmations printed so far. */
  datatype Outcome =
    | Finished(log: seq<Confirmation>)
    | Interrupted(log: seq<Confirmation>)
    | Failed(failure: Failure, log: seq<Confirmation>)
    | Running(log: seq<Confirmation>)

  /** What happens outside the script while it runs: whether creating the
      client fails, which send attempt (if any) the service rejects, after how
      many sends the user presses Ctrl-C, the pause drawn after each send, and
      how many iterations are observed. */
  datatype World = World(
    clientFails: bool, sendFailsAt: Option<nat>, interruptAfter: Option<nat>,
    pauses: nat -> real, horizon: nat)

  /** The confirmations of the first `|log|` sends: the counter goes 1, 2, 3 ...
      and the n-th confirmation reports the n-th drawn order. */
  predicate Numbered(log: seq<Confirmation>, draws: nat -> Draw) {
    forall i :: 0 <= i < |log| ==> log[i].counter == i + 1 && log[i].order == BuildOrder(draws(i))
  }

  /** The log after one more successful send. */
  function Confirm(log: seq<Confirmation>, draws: nat -> Draw): (r: seq<Confirmation>)
    requires Numbered(log, draws)
    ensures Numbered(r, draws) && |r| == |log| + 1 && r[..|log|] == log
  {
    log + [Confirmation(|log| + 1, BuildOrder(draws(|log|)))]
  }

  /** `while count <= 0 or sent < count` from `sent == |log|` onwards. */
  function Loop(count: int, draws: nat -> Draw, world: World, log: seq<Confirmation>): (r: Outcome)
    requires |log| <= world.horizon && Numbered(log, draws)
    requires count > 0 ==> |log| <= count
    ensures Numbered(r.log, draws) && |log| <= |r.log| <= world.horizon
    ensures count > 0 ==> |r.log| <= count
    ensures r.Finished? ==> count > 0 && |r.log| == count
    ensures r.Interrupted? ==> world.interruptAfter == Some(|r.log|)
    ensures r.Running? ==> |r.log| == world.horizon
    ensures r.Failed? ==> r.failure == SendRejected || r.failure == NegativePause || r.failure == PauseOverflow
    ensures r.Failed? && r.failure == SendRejected ==> world.sendFailsAt == Some(|r.log|)
    ensures r.Failed? && r.failure != SendRejected ==>
      r.log != [] && SleepError(world.pauses(|r.log| - 1)) == Some(r.failure)
    decreases world.horizon - |log|
  {
    var sent := |log|;
    if world.interruptAfter == Some(sent) then Interrupted(log)
    else if !(count <= 0 || sent < count) then Finished(log)
    else if sent == world.horizon then Running(log)
    else if world.sendFailsAt == Some(sent) then Failed(SendRejected, log)
    else
      var log' := Confirm(log, draws);
      var slept := SleepError(world.pauses(sent));
      if slept.Some? then
        assert |log'| - 1 == sent;
        Failed(slept.value, log')
      else Loop(count, draws, world, log')
  }

  /** `send_orders`: the delay check comes first, then the hub name, then
      the client, then the loop. */
  function SendOrders(conn: string, hub: Option<string>, minDelay: real, maxDelay: real, count: int,
    draws: nat -> Draw, world: World): (r: Outcome)
    ensures minDelay > maxDelay ==> r == Failed(DelayOrder, [])
    ensures minDelay <= maxDelay && HubName(hub, conn).Err? ==> r == Failed(NoEntityPath, [])
    ensures r.Failed? && (r.failure.DelayOrder? || r.failure.NoEntityPath? || r.failure.ClientRejected?) ==> r.log == []
    ensures Numbered(r.log, draws)
  {
    if minDelay > maxDelay then Failed(DelayOrder, [])
    else match HubName(hub, conn)
      case Err(_) => Failed(NoEntityPath, [])
      case Ok(_) => if world.clientFails then Failed(ClientRejected, []) else Loop(count, draws, world, [])
  }

  /** The loop runs to completion: a positive count, enough iterations
      observed, no failure and no interrupt before the end give exactly
      `count` confirmations. */
  lemma {:induction false} LoopSendsCount(count: int, draws: nat -> Draw, world: World, log: seq<Confirmation>)
    requires 0 < count <= world.horizon && |log| <= count && Numbered(log, draws)
    requires forall k :: |log| <= k < count ==> world.sendFailsAt != Some(k) && world.interruptAfter != Some(k)
    requires forall k :: |log| <= k < count ==> 0.0 <= world.pauses(k) < SleepLimit
    requires world.interruptAfter != Some(count)
    ensures Loop(count, draws, world, log) == Finished(Loop(count, draws, world, log).log)
    ensures |Loop(count, draws, world, log).log| == count
    decreases count - |log|
  {
    var sent := |log|;
    if sent < count {
      var log' := Confirm(log, draws);
      LoopSendsCount(count, draws, world, log');
    }
  }

  /** With `count <= 0` the loop has no bound of its own: it never finishes,
      whatever happens around it. This is a corollary of `Loop`'s contract,
      which only finishes for a positive count. */
  lemma UnboundedNeverFinishes(count: int, draws: nat -> Draw, world: World, log: seq<Confirmation>)
    requires count <= 0 && |log| <= world.horizon && Numbered(log, draws)
    ensures !Loop(count, draws, world, log).Finished?
  {
  }

  /** With `count <= 0` and nothing stopping it, the loop is still sending
      after any number of iterations. */
  lemma {:induction false} UnboundedKeepsSending(count: int, draws: nat -> Draw, world: World, log: seq<Confirmation>)
    requires count <= 0 && |log| <= world.horizon && Numbered(log, draws)
    requires world.interruptAfter.None? && world.sendFailsAt.None?
    requires forall k :: |log| <= k < world.horizon ==> 0.0 <= world.pauses(k) < SleepLimit
    ensures Loop(count, draws, world, log).Running?
    ensures |Loop(count, draws, world, log).log| == world.horizon
    decreases world.horizon - |log|
  {
    var sent := |log|;
    if sent < world.horizon {
      var log' := Confirm(log, draws);
      UnboundedKeepsSending(count, draws, world, log');
    }
  }

  /** A negative maximum delay makes the first pause fail: at most one order
      goes out, and if one does, `send_orders` then raises `ValueError`, or
      `OverflowError` for a pause below `-SleepLimit`. */
  lemma NegativeDelaysSendAtMostOne(conn: string, hub: Option<string>, minDelay: real, maxDelay: real,
    count: int, draws: nat -> Draw, world: World)
    requires maxDelay < 0.0
    requires forall k: nat :: minDelay <= world.pauses(k) <= maxDelay
    ensures var r := SendOrders(conn, hub, minDelay, maxDelay, count, draws, world);
      |r.log| <= 1 && (r.log != [] ==> r.Failed? && Some(r.failure) == SleepError(world.pauses(0)))
    ensures var r := SendOrders(conn, hub, minDelay, maxDelay, count, draws, world);
      r.log != [] && -SleepLimit <= minDelay ==> r.failure == NegativePause
  {
    assert world.pauses(0) < 0.0;
    if minDelay <= maxDelay && HubName(hub, conn).Ok? && !world.clientFails {
      FirstPauseNegative(count, draws, world);
    }
  }

  /** A negative first pause stops the loop after at most one send, with the sleep's error. */
  lemma FirstPauseNegative(count: int, draws: nat -> Draw, world: World)
    requires world.pauses(0) < 0.0
    ensures var r := Loop(count, draws, world, []);
      |r.log| <= 1 && (r.log != [] ==> r.Failed? && Some(r.failure) == SleepError(world.pauses(0)))
  {
  }

  /** `main`: the exit status, or `None` while the loop is still running.
      Resolution failure gives 2; an error raised by `send_orders` gives 1,
      either returned by `main` or, for `OverflowError`, the status the
      interpreter exits with after an uncaught exception; an interrupt or a
      finished run gives 0. */
  function SendMain(cli: Option<string>, lines: seq<string>, env: Env, hub: Option<string>,
    minDelay: real, maxDelay: real, count: int, draws: nat -> Draw, world: World): (code: Option<int>)
    ensures Resolve(Send, cli, lines, env).Err? ==> code == Some(2)
    ensures code.Some? ==> code.value in {0, 1, 2}
  {
    match Resolve(Send, cli, lines, env)
    case Err(_) => Some(2)
    case Ok(conn) =>
      match SendOrders(conn, hub, minDelay, maxDelay, count, draws, world)
      case Failed(_, _) => Some(1)
      case Interrupted(_) => Some(0)
      case Finished(_) => Some(0)
      case Running(_) => None
  }

  /** The exit status of `main` against the outcome of `send_orders`. */
  lemma SendMainCodes(cli: Option<string>, lines: seq<string>, env: Env, hub: Option<string>,
    minDelay: real, maxDelay: real, count: int, draws: nat -> Draw, world: World)
    requires Resolve(Send, cli, lines, env).Ok?
    ensures var r := SendOrders(Resolve(Send, cli, lines, env).value, hub, minDelay, maxDelay, count, draws, world);
      var code := SendMain(cli, lines, env, hub, minDelay, maxDelay, count, draws, world);
      (code == Some(1) <==> r.Failed?) && (code == Some(0) <==> r.Finished? || r.Interrupted?)
      && (code.None? <==> r.Running?) && code != Some(2)
  {
  }

  /** A bad delay pair fails with status 1 before anything else is looked at,
      even when the connection string names no Event Hub. */
  lemma DelayCheckedFirst(cli: Option<string>, lines: seq<string>, env: Env, hub: Option<string>,
    minDelay: real, maxDelay: real, count: int, draws: nat -> Draw, world: World)
    requires minDelay > maxDelay
    ensures SendMain(cli, lines, env, hub, minDelay, maxDelay, count, draws, world)
      == if Resolve(Send, cli, lines, env).Err? then Some(2) else Some(1)
  {
  }

  /** A missing entity path (no `--event-hub` and no qualifying segment) is a
      `ValueError` inside `send_orders`, so `main` returns 1. */
  lemma MissingEntityPathExitsOne(cli: Option<string>, lines: seq<string>, env: Env,
    minDelay: real, maxDelay: real, count: int, draws: nat -> Draw, world: World)
    requires Resolve(Send, cli, lines, env).Ok? && minDelay <= maxDelay
    requires ExtractEntityPath(Resolve(Send, cli, lines, env).value).Err?
    ensures SendMain(cli, lines, env, None, minDelay, maxDelay, count, draws, world) == Some(1)
  {
  }

  /** A clean run of `count > 0` orders ends with status 0 after printing
      confirmations 1 to `count` for the drawn orders. */
  lemma CleanRunExitsZero(cli: Option<string>, lines: seq<string>, env: Env, hub: Option<string>,
    minDelay: real, maxDelay: real, count: int, draws: nat -> Draw, world: World)
    requires Resolve(Send, cli, lines, env).Ok? && minDelay <= maxDelay
    requires HubName(hub, Resolve(Send, cli, lines, env).value).Ok? && !world.clientFails
    requires 0 < count <= world.horizon
    requires world.sendFailsAt.None? && world.interruptAfter.None?
    requires forall k: nat :: 0.0 <= world.pauses(k) < SleepLimit
    ensures SendMain(cli, lines, env, hub, minDelay, maxDelay, count, draws, world) == Some(0)
    ensures var r := SendOrders(Resolve(Send, cli, lines, env).value, hub, minDelay, maxDelay, count, draws, world);
      |r.log| == count && forall i :: 0 <= i < count ==> r.log[i].counter == i + 1 && r.log[i].order == BuildOrder(draws(i))
  {
    CleanSend(Resolve(Send, cli, lines, env).value, hub, minDelay, maxDelay, count, draws, world);
  }

  /** The `send_orders` half of `CleanRunExitsZero`. */
  lemma CleanSend(conn: string, hub: Option<string>, minDelay: real, maxDelay: real, count: int,
    draws: nat -> Draw, world: World)
    requires minDelay <= maxDelay && HubName(hub, conn).Ok? && !world.clientFails
    requires 0 < count <= world.horizon
    requires world.sendFailsAt.None? && world.interruptAfter.None?
    requires forall k: nat :: 0.0 <= world.pauses(k) < SleepLimit
    ensures var r := SendOrders(conn, hub, minDelay, maxDelay, count, draws, world);
      r.Finished? && |r.log| == count
  {
    LoopSendsCount(count, draws, world, []);
  }

  /** A first pause of `SleepLimit` seconds or more (a minimum delay of 1e10,
      say) cannot be slept: the first order goes out, `time.sleep` raises
      `OverflowError`, and the run exits with status 1 whatever `count` asks for. */
  lemma HugePauseExitsOne(cli: Option<string>, lines: seq<string>, env: Env, hub: Option<string>,
    minDelay: real, maxDelay: real, count: int, draws: nat -> Draw, world: World)
    requires Resolve(Send, cli, lines, env).Ok? && minDelay <= maxDelay
    requires HubName(hub, Resolve(Send, cli, lines, env).value).Ok? && !world.clientFails
    requires 0 < world.horizon && world.sendFailsAt != Some(0) && world.interruptAfter != Some(0)
    requires world.pauses(0) >= SleepLimit
    ensures SendMain(cli, lines, env, hub, minDelay, maxDelay, count, draws, world) == Some(1)
    ensures var r := SendOrders(Resolve(Send, cli, lines, env).value, hub, minDelay, maxDelay, count, draws, world);
      r == Failed(PauseOverflow, [Confirmation(1, BuildOrder(draws(0)))])
  {
    HugePauseSend(Resolve(Send, cli, lines, env).value, hub, minDelay, maxDelay, count, draws, world);
  }

  /** The `send_orders` half of `HugePauseExitsOne`. */
  lemma HugePauseSend(conn: string, hub: Option<string>, minDelay: real, maxDelay: real, count: int,
    draws: nat -> Draw, world: World)
    requires minDelay <= maxDelay && HubName(hub, conn).Ok? && !world.clientFails
    requires 0 < world.horizon && world.sendFailsAt != Some(0) && world.interruptAfter != Some(0)
    requires world.pauses(0) >= SleepLimit
    ensures SendOrders(conn, hub, minDelay, maxDelay, count, draws, world)
      == Failed(PauseOverflow, [Confirmation(1, BuildOrder(draws(0)))])
  {
    var log := Confirm([], draws);
    assert log == [Confirmation(1, BuildOrder(draws(0)))];
    assert SleepError(world.pauses(0)) == Some(PauseOverflow);
    assert Loop(count, draws, world, []) == Failed(PauseOverflow, log);
  }
}

=== FILE: text.dfy ===
/**
 The handful of Python `str` operations the two scripts rely on:
 `strip` and `lstrip` with and without a character set, `lower` as used
 in prefix tests, the `in` test for one character, and `split` on one
 separator (with and without a limit of one split).
 */
module Text {
  import opened Wrappers

  /** The characters for which Python's `str.isspace()` holds; `strip()`
      without arguments removes exactly these. */
  predicate IsSpace(c: char) {
    || c == ' ' || '\t' <= c <= '\r' || '\U{1C}' <= c <= '\U{1F}'
    || c == '\U{85}' || c == '\U{A0}' || c == '\U{1680}' || '\U{2000}' <= c <= '\U{200A}'
    || c == '\U{2028}' || c == '\U{2029}' || c == '\U{202F}' || c == '\U{205F}' || c == '\U{3000}'
  }

  const Whitespace: set<char> := set c: char | '\t' <= c <= '\U{3000}' && IsSpace(c)

  /** `s.lstrip(cs)`: drop the longest prefix made of characters in `cs`. */
  function LStrip(s: string, cs: set<char>): (r: string)
    ensures |r| <= |s| && r == s[|s| - |r|..]
    ensures r != [] ==> r[0] !in cs
    ensures forall i :: 0 <= i < |s| - |r| ==> s[i] in cs
    decreases |s|
  {
    if |s| > 0 && s[0] in cs then LStrip(s[1..], cs) else s
  }

  /** The right-hand half of `s.strip(cs)`: drop the longest suffix made of
      characters in `cs`. */
  function RStrip(s: string, cs: set<char>): (r: string)
    ensures |r| <= |s| && r == s[..|r|]
    ensures r != [] ==> r[|r| - 1] !in cs
    ensures forall i :: |r| <= i < |s| ==> s[i] in cs
    decreases |s|
  {
    if |s| > 0 && s[|s| - 1] in cs then RStrip(s[..|s| - 1], cs) else s
  }

  /** `s.strip(cs)`: characters of `cs` removed from both ends. */
  function Strip(s: string, cs: set<char>): (r: string)
    ensures |r| <= |s|
    ensures |r| == |s| ==> r == s
    ensures r != [] ==> r[0] !in cs && r[|r| - 1] !in cs
    decreases |s|
  {
    if |s| > 0 && s[0] in cs then Strip(s[1..], cs)
    else if |s| > 0 && s[|s| - 1] in cs then Strip(s[..|s| - 1], cs)
    else s
  }

  /** Stripping both ends at once is stripping the left end and then the
      right end, so the result is the infix of `s` that neither begins nor
      ends with a character of `cs` and outside of which every character is
      in `cs`. */
  lemma {:induction false} StripIsBothEnds(s: string, cs: set<char>)
    ensures Strip(s, cs) == RStrip(LStrip(s, cs), cs)
    decreases |s|
  {
    if |s| > 0 && s[0] in cs {
      StripIsBothEnds(s[1..], cs);
    } else if |s| > 0 && s[|s| - 1] in cs {
      StripIsBothEnds(s[..|s| - 1], cs);
      assert LStrip(s, cs) == s;
      assert LStrip(s[..|s| - 1], cs) == s[..|s| - 1];
    }
  }

  /** `lstrip` removes exactly a leading run of `cs` characters when the text
      after the run does not start with one. */
  lemma LStripRun(run: string, rest: string, cs: set<char>)
    requires forall i :: 0 <= i < |run| ==> run[i] in cs
    requires rest == [] || rest[0] !in cs
    ensures LStrip(run + rest, cs) == rest
  {
    var s := run + rest;
    assert s[|run|..] == rest;
  }

  /** Text that neither begins nor ends with a character of `cs` is left alone. */
  lemma StripKeeps(s: string, cs: set<char>)
    requires s == [] || (s[0] !in cs && s[|s| - 1] !in cs)
    ensures Strip(s, cs) == s
  {
  }

  /** The stripped text is an infix of the original: every character it holds
      comes from `s`. */
  lemma {:induction false} StripWithin(s: string, cs: set<char>, c: char)
    requires c in Strip(s, cs)
    ensures c in s
    decreases |s|
  {
    if |s| > 0 && s[0] in cs {
      StripWithin(s[1..], cs, c);
    } else if |s| > 0 && s[|s| - 1] in cs {
      StripWithin(s[..|s| - 1], cs, c);
      assert s[..|s| - 1] <= s;
    }
  }

  /** Stripping leaves nothing exactly when every character is in `cs`. */
  lemma {:induction false} StripEmpty(s: string, cs: set<char>)
    ensures Strip(s, cs) == [] <==> forall i :: 0 <= i < |s| ==> s[i] in cs
    decreases |s|
  {
    if |s| > 0 && s[0] in cs {
      StripEmpty(s[1..], cs);
      assert forall i :: 1 <= i < |s| ==> s[i] == s[1..][i - 1];
    } else if |s| > 0 && s[|s| - 1] in cs {
      StripEmpty(s[..|s| - 1], cs);
      assert forall i :: 0 <= i < |s| - 1 ==> s[i] == s[..|s| - 1][i];
    }
  }

  /** Stripping is idempotent. */
  lemma StripIdempotent(s: string, cs: set<char>)
    ensures Strip(Strip(s, cs), cs) == Strip(s, cs)
  {
    StripKeeps(Strip(s, cs), cs);
  }

  /** Python truthiness of `s.strip()`: blank means empty once whitespace is gone. */
  predicate IsBlank(s: string) {
    Strip(s, Whitespace) == []
  }

  /** `str.lower()` of one character as far as the prefix tests of the scripts
      can observe it: ASCII capitals map to their lower-case letter. */
  function LowerChar(c: char): char {
    if 'A' <= c <= 'Z' then (c as int + 32) as char else c
  }

  /** `s.lower().startswith(p)` for a lower-case ASCII `p`. */
  predicate FoldedPrefix(s: string, p: string) {
    |p| <= |s| && forall i :: 0 <= i < |p| ==> LowerChar(s[i]) == p[i]
  }

  /** The index of the first occurrence of `c` in `s`, or `None` when there
      is none: what `c in s` tests and where `split` cuts. */
  function Find(s: string, c: char): (r: Option<nat>)
    ensures r.None? <==> c !in s
    ensures r.Some? ==> r.value < |s| && s[r.value] == c && c !in s[..r.value]
  {
    if s == [] then None
    else if s[0] == c then Some(0)
    else
      match Find(s[1..], c)
      case None => None
      case Some(i) =>
        assert s[..i + 1] == [s[0]] + s[1..][..i];
        Some(i + 1)
  }

  /** Whatever the rest holds, the first `c` after a `c`-free prefix is found
      right behind that prefix. */
  lemma FindAfterPrefix(a: string, c: char, b: string)
    requires c !in a
    ensures Find(a + [c] + b, c) == Some(|a|)
  {
    var s := a + [c] + b;
    assert s[|a|] == c;
    assert s[..|a|] == a;
  }

  /** `sep.join(parts)` for a one-character separator. */
  function Join(parts: seq<string>, sep: char): string
    requires |parts| >= 1
  {
    if |parts| == 1 then parts[0] else parts[0] + [sep] + Join(parts[1..], sep)
  }

  /** `s.split(sep)` for a one-character separator: at least one part, no part
      holds the separator, and joining the parts gives `s` back. */
  function Split(s: string, sep: char): (parts: seq<string>)
    ensures |parts| >= 1
    ensures forall i :: 0 <= i < |parts| ==> sep !in parts[i]
    ensures Join(parts, sep) == s
    decreases |s|
  {
    match Find(s, sep)
    case None => [s]
    case Some(i) =>
      var rest := Split(s[i + 1..], sep);
      assert s == s[..i] + [sep] + s[i + 1..];
      [s[..i]] + rest
  }

  /** The other direction of the round trip: splitting a join of
      separator-free parts recovers the parts. */
  lemma {:induction false} SplitJoin(parts: seq<string>, sep: char)
    requires |parts| >= 1
    requires forall i :: 0 <= i < |parts| ==> sep !in parts[i]
    ensures Split(Join(parts, sep), sep) == parts
    decreases |parts|
  {
    if |parts| > 1 {
      var tail := Join(parts[1..], sep);
      FindAfterPrefix(parts[0], sep, tail);
      var s := parts[0] + [sep] + tail;
      assert s[|parts[0]| + 1..] == tail;
      assert s[..|parts[0]|] == parts[0];
      SplitJoin(parts[1..], sep);
    } else {
      assert sep !in parts[0];
    }
  }

  /** The text after the first `sep` (`s.split(sep, 1)[1]`). */
  function AfterFirst(s: string, sep: char): (r: string)
    requires sep in s
    ensures |r| < |s| && r == s[|s| - |r|..]
    ensures s[|s| - |r| - 1] == sep && sep !in s[..|s| - |r| - 1]
  {
    var i := Find(s, sep).value;
    s[i + 1..]
  }

  /** Splitting `a + sep + b` once, with no `sep` in `a`, gives `b`. */
  lemma AfterFirstOf(a: string, sep: char, b: string)
    requires sep !in a
    ensures AfterFirst(a + [sep] + b, sep) == b
  {
    FindAfterPrefix(a, sep, b);
    assert (a + [sep] + b)[|a| + 1..] == b;
  }
}

=== FILE: wrappers.dfy ===
/** Failure-carrying values shared by every module of the model. */
module Wrappers {

  /** A value that may be absent (Python's `None`). */
  datatype Option<+T> = None | Some(value: T)

  /** The result of an operation that either returns a value or raises. */
  datatype Result<+T, +E> = Ok(value: T) | Err(error: E)
}
